=== FILE: README.md ===
# Movie app core, modelled in Dafny

This project models the decision-making core of a movie-browsing web app. The
app has an Express back end and a React front end, and uses an external movie
metadata service (TMDB). The model covers:

- **Personalized recommendations** (`server/routes/movies.js`, the
  `/recommendations/personalized` handler):
  - loads at most five of the user's stored favorites;
  - asks the metadata service for recommendations for the first three of them
    (five results each);
  - if the user has preferred genres, runs one genre discovery (ten results);
  - appends the answers in call order, keeps the first movie of each id, drops
    the loaded favorites, and returns at most 20 movies with their count.

  A failed call is swallowed and contributes nothing. A user record that
  cannot be read gives a server error. The model is module `Recommendations`.
  Each call to the metadata service is a `Lookup` answered by a responder
  function; `None` is a failed call.
- **The `/popular` URL builder** (same file): `api_key` and `page` come first,
  then each present, non-empty filter in a fixed order. The model is module
  `PopularQuery`.
- **The client-side favorites and watchlist container**
  (`src/contexts/MovieContext.tsx`): an add drops any older entry with the
  same id and appends the movie; a remove drops every entry with that id.
  Modules `Movies` and `MovieContext`.
- **The user routes** (`server/routes/users.js`), as transitions of an
  abstract document store (module `UserStore`):
  - profile read and update;
  - favorites add, remove and check;
  - watchlists create, delete, add movie and remove movie;
  - reviews create, update, delete and read.

  Each handler maps the store and the authenticated caller's id to a status
  code and a new store. Fresh document ids are inputs.
- **The search page** (`src/pages/Search.tsx`), module `SearchPage`:
  - the case-insensitive substring filter over the page's two mock movies;
  - the trim guard on submit, and the effect that re-runs a search from the
    URL's `q`;
  - the filter reset and the 30 year options.

  The JavaScript string operations it needs (`toLowerCase`, `includes`, `trim`)
  are in module `Text`.

Shared pieces are `Wrappers.Option` and, in module `Seqs`, `Take` (JavaScript
`slice(0, n)`) and `Filter` (`Array.prototype.filter`).

The recommendation filter is modelled as written: `index ===
self.findIndex(...) && !favoriteMovieIds.includes(...)`. It is then proved
equal to a reference definition: de-duplicate keeping first occurrences, then
exclude the favorites (`KeepFirstIsDedupThenExclude`,
`PersonalizedIsReference`).

Behaviour a reader might not expect, which the model follows as written:

- **Only the loaded favorites are excluded.** The comment at
  server/routes/movies.js:106 announces that movies already in favorites are
  removed. The exclusion list, however, is built from the favorites loaded at
  line 74, and that query stops at five. A sixth stored favorite can
  therefore be recommended; `SixthFavoriteCanBeRecommended` exhibits it.
- **Deleting a document the caller does not own succeeds.** `DELETE
  /watchlists/:id` and `DELETE /reviews/:id` (server/routes/users.js:111-118
  and 225-232) delete only a document the caller owns. They answer 200
  whether or not anything was deleted, never 404. `DeleteWatchlist` and
  `DeleteReview` state both halves.
- **Resubmitting the URL's query keeps the typed text.** The search page's
  effect re-runs only when the URL's search string changes
  (src/pages/Search.tsx:58-64). Submitting writes the canonical string
  `setSearchParams` produces for the trimmed query. Submitting ` avatar ` while
  the URL already holds exactly that string for `avatar` searches for `avatar`
  but leaves the input as typed. A URL holding the same `q` in another
  encoding (the home page's `encodeURIComponent` writes a space as `%20`,
  where the canonical form writes `+`), or holding other parameters, does
  change, so the input then shows the trimmed query (`SearchPage.Submit`).
- **Update bodies may leave fields out.** The profile and review updates
  (server/routes/users.js:21-35 and 205-223) change only the fields the body
  carries; a missing field keeps its stored value.

## Model

| member | source | states |
|---|---|---|
| `Seqs.Take` | server/routes/movies.js:113 | `slice(0, n)`: the result is a prefix of length min(n, length); the whole list when it is short enough |
| `Seqs.Filter` | src/contexts/MovieContext.tsx:55 | `Array.prototype.filter`: never longer than the input, and every element kept passes the test |
| `Seqs.FilterMembership` | src/contexts/MovieContext.tsx:55 | an element is in the filtered list exactly when it is in the list and passes the test |
| `Seqs.FilterConcat` | src/contexts/MovieContext.tsx:55 | filtering a concatenation is concatenating the filtered parts, so the survivors keep their order |
| `Movies.HasId` | src/contexts/MovieContext.tsx:66-68 | `some(m => m.id === id)`: true exactly when some position holds that id |
| `Movies.WithoutId` | src/contexts/MovieContext.tsx:54-56 | `filter(m => m.id !== id)`: no entry with the id survives, every other entry survives, nothing changes when the id is absent, the length drops by the number of entries with the id |
| `Movies.WithoutIdHasId` | src/contexts/MovieContext.tsx:55 | removing one id leaves the presence of every other id unchanged |
| `Movies.WithoutIdKeepsUnique` | src/contexts/MovieContext.tsx:55 | removal keeps the ids of a list distinct |
| `MovieContext.Initial` | src/contexts/MovieContext.tsx:47-48 | both lists start empty |
| `MovieContext.Upsert` | src/contexts/MovieContext.tsx:51 | the movie ends the list, its id occurs exactly once, the other ids' entries are as before, distinct ids stay distinct |
| `MovieContext.AddToFavorites` | src/contexts/MovieContext.tsx:50-52 | the movie is last in favorites, older entries with its id are gone, all others kept, the watchlist is unchanged |
| `MovieContext.RemoveFromFavorites` | src/contexts/MovieContext.tsx:54-56 | exactly the entries with that id leave favorites, the watchlist is unchanged |
| `MovieContext.AddToWatchlist` | src/contexts/MovieContext.tsx:58-60 | the same for the watchlist, favorites unchanged |
| `MovieContext.RemoveFromWatchlist` | src/contexts/MovieContext.tsx:62-64 | the same for the watchlist, favorites unchanged |
| `MovieContext.IsFavorite` | src/contexts/MovieContext.tsx:66-68 | true exactly when some favorite has the id |
| `MovieContext.IsInWatchlist` | src/contexts/MovieContext.tsx:70-72 | true exactly when some watchlist entry has the id |
| `MovieContext.UpsertHasId` | src/contexts/MovieContext.tsx:51 | after an add an id is present exactly when it is the added movie's or was present before |
| `MovieContext.AddThenIsFavorite` | src/contexts/MovieContext.tsx:50-68 | right after adding, the movie is a favorite and no other id changes status |
| `MovieContext.RemoveThenNotFavorite` | src/contexts/MovieContext.tsx:54-68 | right after removing, the id is no favorite and no other id changes status |
| `MovieContext.WatchlistAddRemoveMembership` | src/contexts/MovieContext.tsx:58-72 | the same two facts, in both directions, for the watchlist |
| `MovieContext.ApplyKeepsValid` | src/contexts/MovieContext.tsx:50-64 | every one of the four updates keeps the ids of each list distinct |
| `MovieContext.ApplyAllKeepsValid` | src/contexts/MovieContext.tsx:46-64 | any sequence of updates keeps the ids of each list distinct |
| `MovieContext.ReachableIsValid` | src/contexts/MovieContext.tsx:46-64 | from the initial empty lists, no list ever holds an id twice |
| `Recommendations.Lookups` | server/routes/movies.js:80-104 | the calls issued: one recommendation lookup per favorite among the first three loaded, in order, then one genre discovery exactly when the genre list is non-empty; no call at all without favorites or genres |
| `Recommendations.Contribution` | server/routes/movies.js:82-103 | a failed call adds nothing, an answered one adds exactly the first min(5, n) (per favorite) or min(10, n) (genres) of its n results |
| `Recommendations.Candidates` | server/routes/movies.js:77-104 | the candidate list never holds more movies than the calls' caps allow in sum (5 per favorite lookup, 10 for the genre discovery) |
| `Recommendations.CandidatesProvenance` | server/routes/movies.js:77-104 | every candidate was in the answer of one of the calls issued |
| `Recommendations.CandidatesOrder` | server/routes/movies.js:79-104 | favorite-derived candidates come first, in favorite order, then the genre-derived ones |
| `Recommendations.CandidateBound` | server/routes/movies.js:74-104 | there are never more than 25 candidates (3 × 5 + 10) |
| `Recommendations.FindIndex` | server/routes/movies.js:110 | `findIndex`: the first position holding the id, or -1 when no position does |
| `Recommendations.KeepFirst` | server/routes/movies.js:108-112 | the filter as written, over the first n candidates: it never keeps more than it scans |
| `Recommendations.KeepFirstSound` | server/routes/movies.js:108-112 | each kept movie is not a loaded favorite and is the first candidate with its id |
| `Recommendations.KeepFirstUnique` | server/routes/movies.js:108-112 | no id is kept twice |
| `Recommendations.KeepFirstComplete` | server/routes/movies.js:108-112 | every candidate id that is not a loaded favorite is kept |
| `Recommendations.UniqueRecommendations` | server/routes/movies.js:107-112 | the filtered list has distinct ids, each a candidate and none a loaded favorite |
| `Recommendations.Personalized` | server/routes/movies.js:71-122 | server error exactly when the user record is missing; otherwise at most 20 movies with distinct ids, none among the loaded favorites, and `total_results` equal to their number |
| `Recommendations.PersonalizedFromAnswers` | server/routes/movies.js:77-118 | every recommended movie was in the answer of a call the handler made |
| `Recommendations.Dedup` | server/routes/movies.js:109-110 | reference de-duplication: distinct ids, and exactly the ids of the input |
| `Recommendations.DedupOfUnique` | server/routes/movies.js:109-110 | de-duplication leaves a list with distinct ids unchanged |
| `Recommendations.DedupIdempotent` | server/routes/movies.js:109-110 | de-duplicating twice is de-duplicating once |
| `Recommendations.KeepFirstIsDedupThenExclude` | server/routes/movies.js:108-112 | the index-based filter equals de-duplicate-then-exclude on every prefix of the candidates |
| `Recommendations.PersonalizedIsReference` | server/routes/movies.js:106-118 | the reply's list is the first 20 of the de-duplicated candidates with the loaded favorites removed |
| `Recommendations.NoSignalNoCalls` | server/routes/movies.js:80-118 | with no favorites and no genres no call is made and the reply is the empty list with count 0 |
| `Recommendations.FailedLookupIsEmptyLookup` | server/routes/movies.js:82-103 | a failed call changes the reply exactly as a call answering no results would; the other calls still count |
| `Recommendations.PersonalizedFrame` | server/routes/movies.js:77-118 | the reply depends only on the answers to the calls actually issued |
| `Recommendations.WorkedExample` | server/routes/movies.js:71-122 | favorites 101, 202, 303 with genre 28 and fixed answers (one call failing) give exactly 404, 505, 606 with count 3 |
| `Recommendations.SixthFavoriteCanBeRecommended` | server/routes/movies.js:74-111 | with six stored favorites the sixth is not excluded: it is recommended when a lookup returns it |
| `PopularQuery.Optional` | server/routes/movies.js:19-23 | a filter is appended exactly when its value is present and non-empty, with its own key and value |
| `PopularQuery.PopularParams` | server/routes/movies.js:15-17 | `api_key` is first and `page` second, `page` defaulting to 1 only when absent |
| `PopularQuery.PopularParamsOrdered` | server/routes/movies.js:17-23 | the keys follow the fixed order api_key, page, with_genres, vote_average.gte, vote_average.lte, year, sort_by, each at most once |
| `PopularQuery.ParamValue` | server/routes/movies.js:15-23 | for every key, the value the URL carries is the request's value when truthy, absent otherwise; api_key and page are always there |
| `PopularQuery.PopularParamsRoundTrip` | server/routes/movies.js:15-23 | reading the parameters back gives the request's query with the page defaulted and falsy filters dropped |
| `PopularQuery.PopularUrl` | server/routes/movies.js:17 | the URL starts with the discovery endpoint followed by `?api_key=` and the key |
| `PopularQuery.PopularUrlDefault` | server/routes/movies.js:15-17 | with no query parameters the URL is exactly the endpoint, the key and `&page=1` |
| `UserStore.GetProfile` | server/routes/users.js:11-18 | the caller's profile when the user exists, null otherwise |
| `UserStore.UpdateProfile` | server/routes/users.js:21-35 | status 200; when the user exists each of username, avatar and preferences takes the body's value if the body carries one and keeps its stored value otherwise; a missing user or an empty body changes nothing; no other user or collection is touched |
| `UserStore.ListFavorites` | server/routes/users.js:38-45 | exactly the movie ids the caller has favorited |
| `UserStore.IsFavorite` | server/routes/users.js:74-81 | true exactly when the movie is among the caller's favorites |
| `UserStore.AddFavorite` | server/routes/users.js:47-63 | 400 with no change when the pair exists; otherwise 201 with exactly that pair added; only the favorites change |
| `UserStore.RemoveFavorite` | server/routes/users.js:65-72 | always 200; afterwards the pair is absent and nothing else was removed |
| `UserStore.AddFavoriteTwice` | server/routes/users.js:47-63 | the second identical add is rejected with 400 and leaves the store as the first left it |
| `UserStore.ListWatchlists` | server/routes/users.js:84-91 | exactly the caller's watchlists, unchanged |
| `UserStore.CreateWatchlist` | server/routes/users.js:93-109 | 201 with a new empty list owned by the caller under the fresh id with the given name and description; a taken id is a 500 with no change |
| `UserStore.DeleteWatchlist` | server/routes/users.js:111-118 | always 200; the list is gone if the caller owned it, and nothing changes otherwise |
| `UserStore.AddToWatchlist` | server/routes/users.js:120-141 | 404 when the list is absent or not the caller's, 400 when the movie is listed, else 200 with the movie appended at the end; other lists untouched |
| `UserStore.RemoveFromWatchlist` | server/routes/users.js:143-157 | 404 when not the caller's, else 200: the movie is absent afterwards, every other movie keeps its membership, nothing changes if it was absent |
| `UserStore.RemoveKeepsOrder` | server/routes/users.js:150 | the remaining entries keep their relative order |
| `UserStore.ReviewsOfMovie` | server/routes/users.js:160-169 | exactly the reviews of that movie, by anyone |
| `UserStore.UserReview` | server/routes/users.js:171-178 | exactly the caller's reviews of that movie; there is one exactly when the caller has reviewed it |
| `UserStore.UserReviewAtMostOne` | server/routes/users.js:171-187 | in a valid store the caller has at most one review per movie |
| `UserStore.CreateReview` | server/routes/users.js:180-203 | 400 with no change when the caller already reviewed the movie, 500 on a taken id, else 201 storing the review under the fresh id; other reviews unchanged |
| `UserStore.UpdateReview` | server/routes/users.js:205-223 | 404 with no change unless the caller owns the review; otherwise 200, and the rating and the content each take the body's value if it carries one and keep the stored value otherwise; owner, movie and other reviews unchanged |
| `UserStore.DeleteReview` | server/routes/users.js:225-232 | always 200; the review is gone if the caller owned it, nothing changes otherwise |
| `UserStore.CreateReviewTwice` | server/routes/users.js:180-203 | a second review of the same movie is rejected with 400, whatever id it would use |
| `UserStore.Handle` | server/routes/users.js:21-232 | whichever handler runs, no other user's profile, favorites, watchlists or reviews are added, removed or altered |
| `UserStore.HandlePreservesValid` | server/routes/users.js:120-223 | every handler keeps watchlist entries distinct and reviews unique per (user, movie) |
| `Text.ToLower` | src/pages/Search.tsx:74-75 | the same length, each ASCII capital lowered, everything else kept |
| `Text.SameIgnoringCaseLower` | src/pages/Search.tsx:74-75 | strings that differ only in letter case lower to the same string |
| `Text.Includes` | src/pages/Search.tsx:74-75 | `includes`: true exactly when the needle occurs at some position of the haystack |
| `Text.Trim` | src/pages/Search.tsx:89-91 | the result is a middle part of the input with no whitespace at either end, everything cut off is whitespace, and it is empty exactly when the input is all whitespace |
| `Text.TrimIdempotent` | src/pages/Search.tsx:89-91 | trimming twice is trimming once |
| `SearchPage.MatchesQuery` | src/pages/Search.tsx:73-76 | the test holds exactly when the lowercased query occurs in the lowercased title or in the lowercased overview |
| `SearchPage.PerformSearch` | src/pages/Search.tsx:66-85 | exactly the movies whose lowercased title or overview contains the lowercased query |
| `SearchPage.SearchKeepsOrder` | src/pages/Search.tsx:73-76 | results keep the order of the movie list |
| `SearchPage.SearchIgnoresCase` | src/pages/Search.tsx:73-76 | queries that differ only in letter case give the same results |
| `SearchPage.SearchUpperCase` | src/pages/Search.tsx:73-76 | an upper-cased query finds the same movies |
| `SearchPage.EmptyQueryFindsAll` | src/pages/Search.tsx:73-76 | the empty query matches every movie |
| `SearchPage.Initial` | src/pages/Search.tsx:49-54 | the URL's `q` and the form of its search string are kept as the page was reached; the input shows that `q` or nothing; filters at popularity, no year, no rating; no results |
| `SearchPage.UrlEffect` | src/pages/Search.tsx:58-64 | reading `q` from the page's own URL: when it is present and non-empty the input shows it and the results are its search; otherwise nothing changes; the URL and the filters never change |
| `SearchPage.UrlEffectIdempotent` | src/pages/Search.tsx:58-64 | running the effect a second time, as React's development mode does, changes nothing |
| `SearchPage.MountSearchesUrlQuery` | src/pages/Search.tsx:49-64 | on mount the input shows the URL's `q` or nothing, and the results are the search for `q` exactly when it is present and non-empty, empty otherwise |
| `SearchPage.HandleSearch` | src/pages/Search.tsx:87-93 | a blank trimmed query does nothing; otherwise the trimmed query goes to the URL and its search becomes the results, nothing else changes |
| `SearchPage.Submit` | src/pages/Search.tsx:58-93 | a blank query changes nothing; otherwise the URL holds the trimmed query in canonical form and the results are its search; the input shows the trimmed query when the URL's search string changed (a different `q`, or a non-canonical string before) and keeps the typed text when it did not; the filters are untouched |
| `SearchPage.SubmitIdempotent` | src/pages/Search.tsx:58-93 | submitting again right after a submit changes nothing |
| `SearchPage.BlankQueryDoesNothing` | src/pages/Search.tsx:87-93 | a query made only of whitespace never searches |
| `SearchPage.HandleSearchIdempotent` | src/pages/Search.tsx:87-93 | submitting the trimmed query again changes nothing |
| `SearchPage.ClearFilters` | src/pages/Search.tsx:95-99 | sort, year and rating return to their defaults and every other part of the page, the URL and its form included, is kept; clearing twice is clearing once |
| `SearchPage.ClearFiltersLikeInitial` | src/pages/Search.tsx:51-99 | after clearing, the filters equal a fresh page's |
| `SearchPage.YearOptions` | src/pages/Search.tsx:101-102 | thirty consecutive years, newest first, starting at the current year; a year is offered exactly when it is among the last thirty |

## Left out

- Network calls to the metadata service: each is a `Lookup` answered by a responder parameter, so response bodies other than the results list are not modelled.
- Recommendations.Personalized: the responder answers by call, so two identical calls (a movie id stored twice among the first three favorites) get the same answer, where the network could fail one and answer the other; `FailedLookupIsEmptyLookup` likewise treats every call equal to the failed one as empty.
- The user and favorites reads of the recommendation handler are inputs, so a failing database read (which would also give 500) is not modelled.
- The reviews query at server/routes/movies.js:75 is not modelled: its result is never used.
- The genre discovery's URL (joined genre ids, sort order, vote-count floor) is not modelled: only the genre list it is built from is.
- Routes that only forward a request to the metadata service are not modelled: `/search`, `/trending`, `/:id` and `/genres/list` have no logic of their own.
- The axios call of `/popular` and its 500 path are left out; the model stops at the URL.
- Values in URLs are not escaped, as in the code, and `PopularQuery.PopularUrl` renders them as given.
- PopularQuery.PopularParams: each query value is one string; a key repeated in the query string, which Express delivers as an array (always truthy, rendered comma-joined), is not modelled.
- The authentication middleware, request validation, Mongoose schema validators (`runValidators`), `populate` of review authors and the `select('-password')` projection are not modelled: the caller's id is an input and profiles hold only the updated fields.
- UserStore.UpdateProfile: an absent body field keeps its stored value, as Mongoose 6 and later strip undefined keys from an update; the older behaviour of writing them as null is not modelled.
- UserStore.HandlePreservesValid: requests are modelled as serialised, one handler at a time. The source checks and then writes across `await`s with no transaction (server/routes/users.js:51-57, 129-135, 184-196). Two concurrent identical requests, such as a double-clicked add, can both pass the check and store a favorite or review twice for one (user, movie), or list a movie twice in a watchlist. The duplicate rejections of `AddFavorite`, `AddToWatchlist` and `CreateReview` and this invariant hold only for serialised requests.
- The `createdAt` descending sort of favorites, watchlists and reviews is not modelled: collections are sets and maps keyed by id, so the listings state membership, not order.
- UserStore.AddToWatchlist: movie ids are integers, so the code's strict comparison of a body value that may be a string with stored numbers, and the `parseInt` of the removal path, are not modelled.
- Movie fields other than id, title and overview (posters, dates, ratings, popularity) are not modelled: no modelled logic reads them.
- Text.ToLower: lowers only ASCII letters, where JavaScript's `toLowerCase` maps all of Unicode. The mock titles and overviews are ASCII, but the typed query is not bound to be: U+212A KELVIN SIGN lowers to `k` in JavaScript, so the page finds the movie mentioning M'Baku for it and the model finds nothing. Full Unicode case mapping is a table outside the model.
- The search page's simulated half-second delay, the loading flag, the filter panel toggle and the rendering are not modelled; the error branch of `performSearch` cannot be taken, since filtering the mock list does not throw.
- The current year is an input to `SearchPage.YearOptions`: the clock is outside the model.
- The Home, Profile and Favorites pages are not part of this model: they only render data from the modelled container and routes.

=== FILE: movie_context.dfy ===
/** The client-side container of src/contexts/MovieContext.tsx: two
    independent in-memory lists of movies, favorites and watchlist. Each
    React state update is a pure function from the old lists to the new. */
module MovieContext {
  import opened Seqs
  import opened Movies

  datatype Collections = Collections(favorites: seq<Movie>, watchlist: seq<Movie>)

  /** Both lists start empty. */
  function Initial(): (c: Collections)
    ensures |c.favorites| == 0 && |c.watchlist| == 0
  {
    Collections([], [])
  }

  /** Drop any entry with the movie's id, then append the movie. */
  function Upsert(s: seq<Movie>, m: Movie): (r: seq<Movie>)
    ensures |r| > 0 && r[|r| - 1] == m
    ensures CountId(r, m.id) == 1
    ensures forall x :: x in r <==> x == m || (x in s && x.id != m.id)
    ensures Filter(IdIsNot(m.id), r) == Filter(IdIsNot(m.id), s)
    ensures UniqueIds(s) ==> UniqueIds(r)
  {
    UpsertFacts(s, m);
    WithoutId(s, m.id) + [m]
  }

  lemma UpsertFacts(s: seq<Movie>, m: Movie)
    ensures Filter(IdIsNot(m.id), WithoutId(s, m.id) + [m]) == Filter(IdIsNot(m.id), s)
    ensures CountId(WithoutId(s, m.id) + [m], m.id) == 1
    ensures UniqueIds(s) ==> UniqueIds(WithoutId(s, m.id) + [m])
  {
    var kept := WithoutId(s, m.id);
    FilterConcat(IdIsNot(m.id), kept, [m]);
    FilterSingleton(IdIsNot(m.id), m);
    FilterIdempotent(IdIsNot(m.id), s);
    CountAppend(kept, m);
    if UniqueIds(s) {
      WithoutIdKeepsUnique(s, m.id);
    }
  }

  lemma {:induction false} CountAppend(s: seq<Movie>, m: Movie)
    ensures CountId(s + [m], m.id) == CountId(s, m.id) + 1
  {
    if |s| == 0 {
      assert [m][1..] == [];
    } else {
      assert (s + [m])[1..] == s[1..] + [m];
      CountAppend(s[1..], m);
    }
  }

  /** `addToFavorites`: the movie goes to the end of the favorites, any
      older entry with its id is dropped, and the watchlist is untouched. */
  function AddToFavorites(c: Collections, m: Movie): (r: Collections)
    ensures |r.favorites| > 0 && r.favorites[|r.favorites| - 1] == m
    ensures forall x :: x in r.favorites <==> x == m || (x in c.favorites && x.id != m.id)
    ensures r.watchlist == c.watchlist
  {
    c.(favorites := Upsert(c.favorites, m))
  }

  /** `removeFromFavorites`: exactly the entries with that id go. */
  function RemoveFromFavorites(c: Collections, id: int): (r: Collections)
    ensures forall x :: x in r.favorites <==> x in c.favorites && x.id != id
    ensures |r.favorites| == |c.favorites| - CountId(c.favorites, id)
    ensures r.watchlist == c.watchlist
  {
    c.(favorites := WithoutId(c.favorites, id))
  }

  /** `addToWatchlist`, the same update on the watchlist. */
  function AddToWatchlist(c: Collections, m: Movie): (r: Collections)
    ensures |r.watchlist| > 0 && r.watchlist[|r.watchlist| - 1] == m
    ensures forall x :: x in r.watchlist <==> x == m || (x in c.watchlist && x.id != m.id)
    ensures r.favorites == c.favorites
  {
    c.(watchlist := Upsert(c.watchlist, m))
  }

  /** `removeFromWatchlist`. */
  function RemoveFromWatchlist(c: Collections, id: int): (r: Collections)
    ensures forall x :: x in r.watchlist <==> x in c.watchlist && x.id != id
    ensures |r.watchlist| == |c.watchlist| - CountId(c.watchlist, id)
    ensures r.favorites == c.favorites
  {
    c.(watchlist := WithoutId(c.watchlist, id))
  }

  /** `favorites.some(m => m.id === movieId)`. */
  function IsFavorite(c: Collections, id: int): (b: bool)
    ensures b <==> exists i :: 0 <= i < |c.favorites| && c.favorites[i].id == id
  {
    HasId(c.favorites, id)
  }

  /** `watchlist.some(m => m.id === movieId)`. */
  function IsInWatchlist(c: Collections, id: int): (b: bool)
    ensures b <==> exists i :: 0 <= i < |c.watchlist| && c.watchlist[i].id == id
  {
    HasId(c.watchlist, id)
  }

  /** After an upsert an id is present exactly when it is the upserted
      movie's or was present before. */
  lemma UpsertHasId(s: seq<Movie>, m: Movie, id: int)
    ensures HasId(Upsert(s, m), id) <==> id == m.id || HasId(s, id)
  {
    var kept := WithoutId(s, m.id);
    HasIdConcat(kept, [m], id);
    assert HasId([m], id) <==> id == m.id by {
      assert [m][0] == m;
    }
    if id != m.id {
      WithoutIdHasId(s, m.id, id);
    }
  }

  /** Right after adding a movie it is a favorite, and only it changed status. */
  lemma AddThenIsFavorite(c: Collections, m: Movie, id: int)
    ensures IsFavorite(AddToFavorites(c, m), m.id)
    ensures id != m.id ==> (IsFavorite(AddToFavorites(c, m), id) <==> IsFavorite(c, id))
  {
    UpsertHasId(c.favorites, m, m.id);
    UpsertHasId(c.favorites, m, id);
  }

  /** Right after removing an id it is no favorite; other ids keep their status. */
  lemma RemoveThenNotFavorite(c: Collections, id: int, other: int)
    ensures !IsFavorite(RemoveFromFavorites(c, id), id)
    ensures other != id ==> (IsFavorite(RemoveFromFavorites(c, id), other) <==> IsFavorite(c, other))
  {
    if other != id {
      WithoutIdHasId(c.favorites, id, other);
    }
  }

  /** The same two facts for the watchlist. */
  lemma WatchlistAddRemoveMembership(c: Collections, m: Movie, id: int, other: int)
    ensures IsInWatchlist(AddToWatchlist(c, m), m.id)
    ensures other != m.id ==> (IsInWatchlist(AddToWatchlist(c, m), other) <==> IsInWatchlist(c, other))
    ensures !IsInWatchlist(RemoveFromWatchlist(c, id), id)
    ensures other != id ==> (IsInWatchlist(RemoveFromWatchlist(c, id), other) <==> IsInWatchlist(c, other))
  {
    UpsertHasId(c.watchlist, m, m.id);
    UpsertHasId(c.watchlist, m, other);
    if other != id {
      WithoutIdHasId(c.watchlist, id, other);
    }
  }

  /** Ids stay unique in both lists under every operation. */
  ghost predicate Valid(c: Collections) {
    UniqueIds(c.favorites) && UniqueIds(c.watchlist)
  }

  datatype Action =
    | AddFavorite(movie: Movie)
    | RemoveFavorite(id: int)
    | AddWatch(movie: Movie)
    | RemoveWatch(id: int)

  function Apply(c: Collections, a: Action): Collections {
    match a
    case AddFavorite(m) => AddToFavorites(c, m)
    case RemoveFavorite(id) => RemoveFromFavorites(c, id)
    case AddWatch(m) => AddToWatchlist(c, m)
    case RemoveWatch(id) => RemoveFromWatchlist(c, id)
  }

  function ApplyAll(c: Collections, actions: seq<Action>): Collections
    decreases |actions|
  {
    if |actions| == 0 then c else ApplyAll(Apply(c, actions[0]), actions[1..])
  }

  /** Starting from the empty lists, any sequence of updates leaves the ids
      of each list unique. */
  lemma {:induction false} ApplyAllKeepsValid(c: Collections, actions: seq<Action>)
    requires Valid(c)
    ensures Valid(ApplyAll(c, actions))
    decreases |actions|
  {
    if |actions| > 0 {
      ApplyKeepsValid(c, actions[0]);
      ApplyAllKeepsValid(Apply(c, actions[0]), actions[1..]);
    }
  }

  /** One update keeps the ids of each list unique. */
  lemma ApplyKeepsValid(c: Collections, a: Action)
    requires Valid(c)
    ensures Valid(Apply(c, a))
  {
    match a {
      case AddFavorite(m) =>
      case RemoveFavorite(id) => WithoutIdKeepsUnique(c.favorites, id);
      case AddWatch(m) =>
      case RemoveWatch(id) => WithoutIdKeepsUnique(c.watchlist, id);
    }
  }

  lemma ReachableIsValid(actions: seq<Action>)
    ensures Valid(ApplyAll(Initial(), actions))
  {
    ApplyAllKeepsValid(Initial(), actions);
  }
}

=== FILE: movies.dfy ===
/** The movie record shared by the client and the server, and the id-based
    queries every component asks of a list of movies. */
module Movies {
  import opened Seqs

  /** A movie as relayed from the metadata service. Only the fields some
      modelled operation reads are kept: the integer id, the title and the
      overview. */
  datatype Movie = Movie(id: int, title: string, overview: string)

  /** `s.some(m => m.id === id)`. */
  function HasId(s: seq<Movie>, id: int): (b: bool)
    ensures b <==> exists i :: 0 <= i < |s| && s[i].id == id
  {
    if |s| == 0 then false
    else s[0].id == id || HasId(s[1..], id)
  }

  /** How many entries of s carry the given id. */
  function CountId(s: seq<Movie>, id: int): (n: nat)
    ensures n <= |s|
    ensures n == 0 <==> !HasId(s, id)
  {
    if |s| == 0 then 0
    else (if s[0].id == id then 1 else 0) + CountId(s[1..], id)
  }

  /** No two entries share an id. */
  ghost predicate UniqueIds(s: seq<Movie>) {
    forall i, j :: 0 <= i < j < |s| ==> s[i].id != s[j].id
  }

  /** The test `m => m.id !== id`. */
  function IdIsNot(id: int): Movie -> bool {
    (m: Movie) => m.id != id
  }

  /** `s.filter(m => m.id !== id)`: every entry with that id dropped, the
      others kept in order. */
  function WithoutId(s: seq<Movie>, id: int): (r: seq<Movie>)
    ensures !HasId(r, id)
    ensures forall m :: m in r <==> m in s && m.id != id
    ensures !HasId(s, id) ==> r == s
    ensures |r| == |s| - CountId(s, id)
  {
    WithoutIdFacts(s, id);
    forall m {
      FilterMembership(IdIsNot(id), s, m);
    }
    Filter(IdIsNot(id), s)
  }

  lemma {:induction false} WithoutIdFacts(s: seq<Movie>, id: int)
    ensures !HasId(s, id) ==> Filter(IdIsNot(id), s) == s
    ensures |Filter(IdIsNot(id), s)| == |s| - CountId(s, id)
  {
    if |s| > 0 {
      WithoutIdFacts(s[1..], id);
    }
  }

  /** Filtering keeps the surviving entries' ids distinct. */
  lemma {:induction false} FilterKeepsUniqueIds(keep: Movie -> bool, s: seq<Movie>)
    requires UniqueIds(s)
    ensures UniqueIds(Filter(keep, s))
  {
    if |s| > 0 {
      FilterKeepsUniqueIds(keep, s[1..]);
      var rest := Filter(keep, s[1..]);
      assert Filter(keep, s) == (if keep(s[0]) then [s[0]] else []) + rest;
      forall j | 0 <= j < |rest|
        ensures rest[j].id != s[0].id
      {
        FilterMembership(keep, s[1..], rest[j]);
        var i :| 0 <= i < |s[1..]| && s[1..][i] == rest[j];
        assert s[i + 1] == rest[j];
      }
    }
  }

  /** Removing an id keeps the surviving entries' ids distinct. */
  lemma WithoutIdKeepsUnique(s: seq<Movie>, id: int)
    requires UniqueIds(s)
    ensures UniqueIds(WithoutId(s, id))
  {
    FilterKeepsUniqueIds(IdIsNot(id), s);
  }

  /** An id occurs in a concatenation exactly when it occurs in one part. */
  lemma HasIdConcat(a: seq<Movie>, b: seq<Movie>, id: int)
    ensures HasId(a + b, id) <==> HasId(a, id) || HasId(b, id)
  {
    if HasId(a + b, id) {
      var i :| 0 <= i < |a + b| && (a + b)[i].id == id;
      if i >= |a| {
        assert b[i - |a|].id == id;
      }
    }
    if HasId(a, id) {
      var i :| 0 <= i < |a| && a[i].id == id;
      assert (a + b)[i].id == id;
    }
    if HasId(b, id) {
      var i :| 0 <= i < |b| && b[i].id == id;
      assert (a + b)[|a| + i].id == id;
    }
  }

  /** Removing one id leaves every other id's presence as it was. */
  lemma WithoutIdHasId(s: seq<Movie>, id: int, other: int)
    requires other != id
    ensures HasId(WithoutId(s, id), other) <==> HasId(s, other)
  {
    var r := WithoutId(s, id);
    if HasId(s, other) {
      var i :| 0 <= i < |s| && s[i].id == other;
      assert s[i] in r;
      var j :| 0 <= j < |r| && r[j] == s[i];
    }
    if HasId(r, other) {
      var i :| 0 <= i < |r| && r[i].id == other;
      assert r[i] in s;
      var j :| 0 <= j < |s| && s[j] == r[i];
    }
  }
}

=== FILE: popular_query.dfy ===
/** The URL built by the `/popular` handler of server/routes/movies.js.
    Each query-string value is one string; a repeated key, which Express
    delivers as an array, is not modelled. A parameter is appended when it
    is present and non-empty (JavaScript truthiness of a string), in a
    fixed order after `api_key` and `page`. */
module PopularQuery {
  import opened Wrappers

  const DiscoverUrl: string := "https://api.themoviedb.org/3/discover/movie"

  /** The request's query string; None is an absent parameter. */
  datatype Query = Query(
    page: Option<string>,
    genre: Option<string>,
    minRating: Option<string>,
    maxRating: Option<string>,
    year: Option<string>,
    sortBy: Option<string>)

  /** The keys of the discovery URL, declared in the order the handler
      appends them. */
  datatype Key = ApiKey | Page | WithGenres | VoteAverageGte | VoteAverageLte | Year | SortBy {

    function Name(): string {
      match this
      case ApiKey => "api_key"
      case Page => "page"
      case WithGenres => "with_genres"
      case VoteAverageGte => "vote_average.gte"
      case VoteAverageLte => "vote_average.lte"
      case Year => "year"
      case SortBy => "sort_by"
    }

    function Rank(): nat {
      match this
      case ApiKey => 0
      case Page => 1
      case WithGenres => 2
      case VoteAverageGte => 3
      case VoteAverageLte => 4
      case Year => 5
      case SortBy => 6
    }
  }

  datatype Param = Param(key: Key, value: string)

  /** `if (v)` on a string parameter. */
  predicate Truthy(v: Option<string>) {
    v.Some? && |v.value| > 0
  }

  /** The value as the URL sees it: only a truthy value is sent. */
  function Sent(v: Option<string>): Option<string> {
    if Truthy(v) then v else None
  }

  /** The value of the first parameter with that key. */
  function ValueOf(ps: seq<Param>, key: Key): (v: Option<string>)
    ensures v.None? <==> forall i :: 0 <= i < |ps| ==> ps[i].key != key
  {
    if |ps| == 0 then None
    else if ps[0].key == key then Some(ps[0].value)
    else ValueOf(ps[1..], key)
  }

  lemma {:induction false} ValueOfConcat(a: seq<Param>, b: seq<Param>, key: Key)
    ensures ValueOf(a + b, key) == if ValueOf(a, key).Some? then ValueOf(a, key) else ValueOf(b, key)
  {
    if |a| == 0 {
      assert a + b == b;
    } else {
      assert (a + b)[1..] == a[1..] + b;
      ValueOfConcat(a[1..], b, key);
    }
  }

  function Optional(key: Key, v: Option<string>): (ps: seq<Param>)
    ensures forall k :: ValueOf(ps, k) == if k == key then Sent(v) else None
  {
    if Truthy(v) then [Param(key, v.value)] else []
  }

  /** The parameters of the discovery URL, in order. `page` defaults to "1"
      only when absent: `{ page = 1 } = req.query` keeps an empty string. */
  function PopularParams(apiKey: string, q: Query): (ps: seq<Param>)
    ensures |ps| >= 2
    ensures ps[0] == Param(ApiKey, apiKey)
    ensures ps[1] == Param(Page, q.page.GetOr("1"))
  {
    [Param(ApiKey, apiKey), Param(Page, q.page.GetOr("1"))]
      + Optional(WithGenres, q.genre)
      + Optional(VoteAverageGte, q.minRating)
      + Optional(VoteAverageLte, q.maxRating)
      + Optional(Year, q.year)
      + Optional(SortBy, q.sortBy)
  }

  /** Keys strictly increase in rank, so no key occurs twice. */
  ghost predicate Ordered(ps: seq<Param>) {
    forall i, j :: 0 <= i < j < |ps| ==> ps[i].key.Rank() < ps[j].key.Rank()
  }

  lemma AppendOptional(ps: seq<Param>, key: Key, v: Option<string>)
    requires Ordered(ps) && |ps| > 0 && ps[|ps| - 1].key.Rank() < key.Rank()
    ensures Ordered(ps + Optional(key, v))
    ensures |ps + Optional(key, v)| > 0 && (ps + Optional(key, v))[|ps + Optional(key, v)| - 1].key.Rank() <= key.Rank()
  {
  }

  /** The parameters come in the handler's fixed order, each key at most
      once. */
  lemma PopularParamsOrdered(apiKey: string, q: Query)
    ensures Ordered(PopularParams(apiKey, q))
  {
    var head := [Param(ApiKey, apiKey), Param(Page, q.page.GetOr("1"))];
    AppendOptional(head, WithGenres, q.genre);
    var s1 := head + Optional(WithGenres, q.genre);
    AppendOptional(s1, VoteAverageGte, q.minRating);
    var s2 := s1 + Optional(VoteAverageGte, q.minRating);
    AppendOptional(s2, VoteAverageLte, q.maxRating);
    var s3 := s2 + Optional(VoteAverageLte, q.maxRating);
    AppendOptional(s3, Year, q.year);
    var s4 := s3 + Optional(Year, q.year);
    AppendOptional(s4, SortBy, q.sortBy);
  }

  /** Read a parameter list back into a query. */
  function ToQuery(ps: seq<Param>): Query {
    Query(ValueOf(ps, Page), ValueOf(ps, WithGenres), ValueOf(ps, VoteAverageGte),
          ValueOf(ps, VoteAverageLte), ValueOf(ps, Year), ValueOf(ps, SortBy))
  }

  /** What the URL carries for each key. */
  function Expected(apiKey: string, q: Query, k: Key): Option<string> {
    match k
    case ApiKey => Some(apiKey)
    case Page => Some(q.page.GetOr("1"))
    case WithGenres => Sent(q.genre)
    case VoteAverageGte => Sent(q.minRating)
    case VoteAverageLte => Sent(q.maxRating)
    case Year => Sent(q.year)
    case SortBy => Sent(q.sortBy)
  }

  /** Each optional parameter is in the URL exactly when it is truthy, with
      its own value; `api_key` and `page` are always there. */
  lemma ParamValue(apiKey: string, q: Query, k: Key)
    ensures ValueOf(PopularParams(apiKey, q), k) == Expected(apiKey, q, k)
  {
    var head := [Param(ApiKey, apiKey), Param(Page, q.page.GetOr("1"))];
    var g := Optional(WithGenres, q.genre);
    var lo := Optional(VoteAverageGte, q.minRating);
    var hi := Optional(VoteAverageLte, q.maxRating);
    var y := Optional(Year, q.year);
    var s := Optional(SortBy, q.sortBy);
    ValueOfConcat(head, g, k);
    ValueOfConcat(head + g, lo, k);
    ValueOfConcat(head + g + lo, hi, k);
    ValueOfConcat(head + g + lo + hi, y, k);
    ValueOfConcat(head + g + lo + hi + y, s, k);
  }

  /** Reading the parameters back gives the request's query with the page
      defaulted and the falsy values dropped. */
  lemma PopularParamsRoundTrip(apiKey: string, q: Query)
    ensures ToQuery(PopularParams(apiKey, q))
      == Query(Some(q.page.GetOr("1")), Sent(q.genre), Sent(q.minRating), Sent(q.maxRating), Sent(q.year), Sent(q.sortBy))
  {
    ParamValue(apiKey, q, Page);
    ParamValue(apiKey, q, WithGenres);
    ParamValue(apiKey, q, VoteAverageGte);
    ParamValue(apiKey, q, VoteAverageLte);
    ParamValue(apiKey, q, Year);
    ParamValue(apiKey, q, SortBy);
  }

  function RenderParam(p: Param): string {
    p.key.Name() + "=" + p.value
  }

  /** `&k=v` for every parameter. */
  function RenderRest(ps: seq<Param>): (s: string)
    ensures |ps| == 0 <==> |s| == 0
  {
    if |ps| == 0 then "" else "&" + RenderParam(ps[0]) + RenderRest(ps[1..])
  }

  /** The URL always starts with the discovery endpoint and the API key. */
  function PopularUrl(apiKey: string, q: Query): (url: string)
    ensures |DiscoverUrl + "?api_key=" + apiKey| <= |url|
    ensures url[..|DiscoverUrl + "?api_key=" + apiKey|] == DiscoverUrl + "?api_key=" + apiKey
  {
    var ps := PopularParams(apiKey, q);
    var prefix := DiscoverUrl + "?api_key=" + apiKey;
    assert DiscoverUrl + "?" + RenderParam(ps[0]) == prefix;
    DiscoverUrl + "?" + RenderParam(ps[0]) + RenderRest(ps[1..])
  }

  /** With no parameters at all the URL asks for page 1. */
  lemma PopularUrlDefault(apiKey: string)
    ensures PopularUrl(apiKey, Query(None, None, None, None, None, None))
      == "https://api.themoviedb.org/3/discover/movie?api_key=" + apiKey + "&page=1"
  {
    var ps := PopularParams(apiKey, Query(None, None, None, None, None, None));
    assert ps == [Param(ApiKey, apiKey), Param(Page, "1")];
    assert ps[1..] == [Param(Page, "1")];
    assert ps[1..][1..] == [];
  }
}

=== FILE: recommendations.dfy ===
/** The personalized-recommendation handler of server/routes/movies.js.
    The document-store reads become inputs (the user record and the user's
    stored favorite movie ids, in storage order) and each call to the
    metadata service becomes a `Lookup` answered by a responder, where None
    is a call that failed and whose error was swallowed. */
module Recommendations {
  import opened Wrappers
  import opened Seqs
  import opened Movies

  /** `Favorite.find(...).limit(5)` */
  const LoadedFavoritesLimit: nat := 5
  /** `favorites.slice(0, 3)` */
  const SimilarLookupLimit: nat := 3
  /** `results.slice(0, 5)` per favorite */
  const PerFavoriteLimit: nat := 5
  /** `results.slice(0, 10)` for the genre discovery */
  const GenreLimit: nat := 10
  /** `.slice(0, 20)` on the final list */
  const ResultLimit: nat := 20

  /** A call to the metadata service: the recommendations of one favorite
      movie, or a discovery query over the preferred genres. */
  datatype Lookup = Similar(movieId: int) | Discover(genreIds: seq<int>)

  /** The part of the stored user record this handler reads. */
  datatype UserRecord = UserRecord(favoriteGenres: Option<seq<int>>)

  /** The response: the recommendation list with its count, or the generic
      server error raised when the user's own record cannot be loaded. */
  datatype Reply = Recommendations(results: seq<Movie>, totalResults: int) | ServerError

  /** How many results of a lookup's answer are kept. */
  function Cap(l: Lookup): nat {
    match l
    case Similar(_) => PerFavoriteLimit
    case Discover(_) => GenreLimit
  }

  /** `favoriteGenres && favoriteGenres.length > 0` */
  predicate WantsGenres(genres: Option<seq<int>>) {
    genres.Some? && |genres.value| > 0
  }

  /** One Similar lookup per id, in order. */
  function SimilarLookups(ids: seq<int>): (ls: seq<Lookup>)
    ensures |ls| == |ids|
    ensures forall i :: 0 <= i < |ls| ==> ls[i] == Similar(ids[i])
  {
    if |ids| == 0 then [] else [Similar(ids[0])] + SimilarLookups(ids[1..])
  }

  /** The calls the handler issues, in the order their answers are appended:
      one per favorite among the first three loaded, then at most one genre
      discovery. */
  function Lookups(loaded: seq<int>, genres: Option<seq<int>>): (ls: seq<Lookup>)
    ensures |ls| <= SimilarLookupLimit + 1
    ensures |ls| == |Take(loaded, SimilarLookupLimit)| + (if WantsGenres(genres) then 1 else 0)
    ensures |ls| == 0 <==> |loaded| == 0 && !WantsGenres(genres)
    ensures forall i :: 0 <= i < |ls| && ls[i].Similar? ==> i < SimilarLookupLimit && i < |loaded| && ls[i].movieId == loaded[i]
    ensures forall i :: 0 <= i < |ls| && ls[i].Discover? ==> i == |ls| - 1 && genres == Some(ls[i].genreIds)
    ensures WantsGenres(genres) <==> (|ls| > 0 && ls[|ls| - 1].Discover?)
  {
    SimilarLookups(Take(loaded, SimilarLookupLimit))
      + (if WantsGenres(genres) then [Discover(genres.value)] else [])
  }

  /** What one call contributes: nothing when it failed, else the first
      Cap(l) results of its answer. */
  function Contribution(l: Lookup, answer: Option<seq<Movie>>): (c: seq<Movie>)
    ensures |c| <= Cap(l)
    ensures answer.None? ==> c == []
    ensures answer.Some? ==> |c| <= |answer.value| && c == answer.value[..|c|]
    ensures answer.Some? ==> |c| == if |answer.value| <= Cap(l) then |answer.value| else Cap(l)
  {
    match answer
    case None => []
    case Some(results) => Take(results, Cap(l))
  }

  /** The most results a list of calls can keep: the sum of their caps. */
  function CapSum(ls: seq<Lookup>): nat {
    if |ls| == 0 then 0 else Cap(ls[0]) + CapSum(ls[1..])
  }

  /** The working candidate list: every call's contribution, appended in
      call order. */
  function Candidates(ls: seq<Lookup>, respond: Lookup -> Option<seq<Movie>>): (c: seq<Movie>)
    ensures |c| <= CapSum(ls)
  {
    if |ls| == 0 then []
    else Contribution(ls[0], respond(ls[0])) + Candidates(ls[1..], respond)
  }

  /** Every candidate was in the answer of one of the calls. */
  lemma {:induction false} CandidatesProvenance(ls: seq<Lookup>, respond: Lookup -> Option<seq<Movie>>, m: Movie)
    requires m in Candidates(ls, respond)
    ensures exists l :: l in ls && respond(l).Some? && m in respond(l).value
  {
    var head := Contribution(ls[0], respond(ls[0]));
    if m in head {
      assert ls[0] in ls;
    } else {
      CandidatesProvenance(ls[1..], respond, m);
      var l :| l in ls[1..] && respond(l).Some? && m in respond(l).value;
      assert l in ls;
    }
  }

  lemma {:induction false} CandidatesConcat(a: seq<Lookup>, b: seq<Lookup>, respond: Lookup -> Option<seq<Movie>>)
    ensures Candidates(a + b, respond) == Candidates(a, respond) + Candidates(b, respond)
  {
    if |a| == 0 {
      assert a + b == b;
    } else {
      assert (a + b)[1..] == a[1..] + b;
      CandidatesConcat(a[1..], b, respond);
    }
  }

  /** When every call's cap is at most `each`, the caps sum to at most
      `each` per call. */
  lemma {:induction false} CapSumBound(ls: seq<Lookup>, each: nat)
    requires forall i :: 0 <= i < |ls| ==> Cap(ls[i]) <= each
    ensures CapSum(ls) <= each * |ls|
  {
    if |ls| > 0 {
      CapSumBound(ls[1..], each);
      assert each * |ls| == each + each * |ls[1..]|;
    }
  }

  /** JavaScript's `self.findIndex(m => m.id === id)`: the first index
      holding that id, or -1. */
  function FindIndex(s: seq<Movie>, id: int): (k: int)
    ensures -1 <= k < |s|
    ensures 0 <= k ==> s[k].id == id
    ensures forall j :: 0 <= j < |s| && (k == -1 || j < k) ==> s[j].id != id
  {
    if |s| == 0 then -1
    else if s[0].id == id then 0
    else
      var k := FindIndex(s[1..], id);
      if k == -1 then -1 else k + 1
  }

  /** FindIndex does not look past the first occurrence, so a prefix that
      already contains the id answers the same. */
  lemma FindIndexPrefix(s: seq<Movie>, n: nat, id: int)
    requires n <= |s|
    requires HasId(s[..n], id)
    ensures FindIndex(s, id) == FindIndex(s[..n], id)
  {
    var i :| 0 <= i < n && s[..n][i].id == id;
    assert s[i].id == id;
    var k, k' := FindIndex(s, id), FindIndex(s[..n], id);
    assert s[..n][k'] == s[k'];
  }

  /** The handler's filter `index === self.findIndex(m => m.id === movie.id)
      && !favoriteMovieIds.includes(movie.id)`, applied to the first n
      positions of self. What it keeps is stated by KeepFirstSound,
      KeepFirstUnique and KeepFirstComplete. */
  function KeepFirst(self: seq<Movie>, excluded: seq<int>, n: nat): (r: seq<Movie>)
    requires n <= |self|
    ensures |r| <= n
  {
    if n == 0 then []
    else
      var prev := KeepFirst(self, excluded, n - 1);
      var x := self[n - 1];
      if FindIndex(self, x.id) == n - 1 && x.id !in excluded then
        prev + [x]
      else
        prev
  }

  /** r holds no excluded id, and each entry of r is the first movie of
      self[..n] with its id. */
  ghost predicate FirstOccurrences(self: seq<Movie>, excluded: seq<int>, n: nat, r: seq<Movie>)
    requires n <= |self|
  {
    forall k :: 0 <= k < |r| ==>
      && r[k].id !in excluded
      && 0 <= FindIndex(self, r[k].id) < n
      && r[k] == self[FindIndex(self, r[k].id)]
  }

  /** Each kept movie is not excluded and is the first one in self with its
      id. */
  lemma {:induction false} KeepFirstSound(self: seq<Movie>, excluded: seq<int>, n: nat)
    requires n <= |self|
    ensures FirstOccurrences(self, excluded, n, KeepFirst(self, excluded, n))
  {
    if n > 0 {
      KeepFirstSound(self, excluded, n - 1);
      var prev := KeepFirst(self, excluded, n - 1);
      var x := self[n - 1];
      if FindIndex(self, x.id) == n - 1 && x.id !in excluded {
        AppendFirstOccurrence(self, excluded, n - 1, prev);
      } else {
        FirstOccurrencesGrow(self, excluded, n - 1, prev);
      }
    }
  }

  lemma FirstOccurrencesGrow(self: seq<Movie>, excluded: seq<int>, n: nat, r: seq<Movie>)
    requires n < |self| && FirstOccurrences(self, excluded, n, r)
    ensures FirstOccurrences(self, excluded, n + 1, r)
  {
  }

  lemma AppendFirstOccurrence(self: seq<Movie>, excluded: seq<int>, n: nat, r: seq<Movie>)
    requires n < |self| && FirstOccurrences(self, excluded, n, r)
    requires FindIndex(self, self[n].id) == n && self[n].id !in excluded
    ensures FirstOccurrences(self, excluded, n + 1, r + [self[n]])
  {
    var r' := r + [self[n]];
    forall k | 0 <= k < |r'|
      ensures r'[k].id !in excluded && 0 <= FindIndex(self, r'[k].id) < n + 1 && r'[k] == self[FindIndex(self, r'[k].id)]
    {
      if k < |r| {
        assert r'[k] == r[k];
      } else {
        assert r'[k] == self[n];
      }
    }
  }

  /** No id is kept twice: the filter is a de-duplication followed by a
      filter. */
  lemma KeepFirstUnique(self: seq<Movie>, excluded: seq<int>, n: nat)
    requires n <= |self|
    ensures UniqueIds(KeepFirst(self, excluded, n))
  {
    KeepFirstIsDedupThenExclude(self, excluded, n);
    FilterKeepsUniqueIds(NotExcluded(excluded), Dedup(self[..n]));
  }

  /** Every id of the first n candidates that is not excluded is kept. */
  lemma {:induction false} KeepFirstComplete(self: seq<Movie>, excluded: seq<int>, n: nat, i: nat)
    requires i < n <= |self|
    requires self[i].id !in excluded
    ensures HasId(KeepFirst(self, excluded, n), self[i].id)
  {
    var prev := KeepFirst(self, excluded, n - 1);
    var x := self[n - 1];
    var k := FindIndex(self, self[i].id);
    if k == n - 1 {
      assert KeepFirst(self, excluded, n) == prev + [x];
      assert KeepFirst(self, excluded, n)[|prev|].id == self[i].id;
    } else {
      assert k <= i;
      if i < n - 1 {
        KeepFirstComplete(self, excluded, n - 1, i);
      } else {
        KeepFirstComplete(self, excluded, n - 1, k);
      }
      HasIdConcat(prev, [x], self[i].id);
    }
  }

  /** The handler's whole filter. */
  function UniqueRecommendations(candidates: seq<Movie>, favoriteIds: seq<int>): (r: seq<Movie>)
    ensures |r| <= |candidates|
    ensures UniqueIds(r)
    ensures forall m :: m in r ==> m in candidates && m.id !in favoriteIds
  {
    var r := KeepFirst(candidates, favoriteIds, |candidates|);
    KeepFirstSound(candidates, favoriteIds, |candidates|);
    KeepFirstUnique(candidates, favoriteIds, |candidates|);
    forall m | m in r
      ensures m in candidates && m.id !in favoriteIds
    {
      var k :| 0 <= k < |r| && r[k] == m;
      assert r[k] == candidates[FindIndex(candidates, r[k].id)];
    }
    r
  }

  /** The personalized-recommendation handler. `stored` holds the movie ids
      of the user's favorites in storage order; `user` is None when the
      user's record cannot be loaded. */
  function Personalized(user: Option<UserRecord>, stored: seq<int>, respond: Lookup -> Option<seq<Movie>>): (r: Reply)
    ensures r.ServerError? <==> user.None?
    ensures r.Recommendations? ==> |r.results| <= ResultLimit && r.totalResults == |r.results|
    ensures r.Recommendations? ==> UniqueIds(r.results)
    ensures r.Recommendations? ==> forall m :: m in r.results ==> m.id !in Take(stored, LoadedFavoritesLimit)
  {
    match user
    case None => ServerError
    case Some(u) =>
      var loaded := Take(stored, LoadedFavoritesLimit);
      var candidates := Candidates(Lookups(loaded, u.favoriteGenres), respond);
      var unique := Take(UniqueRecommendations(candidates, loaded), ResultLimit);
      Recommendations(unique, |unique|)
  }

  /** Every recommended movie was in the answer of a call the handler made. */
  lemma PersonalizedFromAnswers(u: UserRecord, stored: seq<int>, respond: Lookup -> Option<seq<Movie>>, m: Movie)
    requires m in Personalized(Some(u), stored, respond).results
    ensures exists l :: l in Lookups(Take(stored, LoadedFavoritesLimit), u.favoriteGenres) && respond(l).Some? && m in respond(l).value
  {
    var loaded := Take(stored, LoadedFavoritesLimit);
    var c := Candidates(Lookups(loaded, u.favoriteGenres), respond);
    var unique := UniqueRecommendations(c, loaded);
    assert m in unique;
    CandidatesProvenance(Lookups(loaded, u.favoriteGenres), respond, m);
  }

  // ---------------------------------------------------------------------
  // Reference definition: de-duplicate keeping first occurrences, then
  // exclude the favorites.

  /** Keep the first entry of each id, in order. */
  function Dedup(s: seq<Movie>): (d: seq<Movie>)
    ensures UniqueIds(d)
    ensures forall id :: HasId(d, id) <==> HasId(s, id)
  {
    if |s| == 0 then []
    else
      var p := s[..|s| - 1];
      var d := Dedup(p);
      var x := s[|s| - 1];
      DedupStep(s, d, x);
      if HasId(d, x.id) then d else d + [x]
  }

  lemma DedupStep(s: seq<Movie>, d: seq<Movie>, x: Movie)
    requires |s| > 0 && x == s[|s| - 1]
    requires forall id :: HasId(d, id) <==> HasId(s[..|s| - 1], id)
    ensures forall id :: HasId(d + [x], id) <==> HasId(s, id)
    ensures HasId(d, x.id) ==> forall id :: HasId(d, id) <==> HasId(s, id)
  {
    var p := s[..|s| - 1];
    assert s == p + [x];
    forall id
      ensures HasId(d + [x], id) <==> HasId(s, id)
      ensures HasId(d, x.id) ==> (HasId(d, id) <==> HasId(s, id))
    {
      HasIdConcat(d, [x], id);
      HasIdConcat(p, [x], id);
    }
  }

  /** The test `m => !favoriteIds.includes(m.id)`. */
  function NotExcluded(excluded: seq<int>): Movie -> bool {
    (m: Movie) => m.id !in excluded
  }

  function Exclude(s: seq<Movie>, excluded: seq<int>): seq<Movie> {
    Filter(NotExcluded(excluded), s)
  }

  /** The handler's single index-based filter is "dedup, then exclude". */
  lemma {:induction false} KeepFirstIsDedupThenExclude(self: seq<Movie>, excluded: seq<int>, n: nat)
    requires n <= |self|
    ensures KeepFirst(self, excluded, n) == Exclude(Dedup(self[..n]), excluded)
  {
    if n == 0 {
      assert self[..0] == [];
    } else {
      KeepFirstIsDedupThenExclude(self, excluded, n - 1);
      var p := self[..n - 1];
      var x := self[n - 1];
      assert self[..n][..n - 1] == p;
      DedupSnoc(self[..n]);
      FirstIndexIff(self, n - 1);
      ExcludeSnoc(Dedup(p), x, excluded);
    }
  }

  /** One more position of the candidates adds the movie there exactly when
      it is the first with its id and not excluded. */
  lemma DedupSnoc(s: seq<Movie>)
    requires |s| > 0
    ensures Dedup(s) == Dedup(s[..|s| - 1]) + (if HasId(s[..|s| - 1], s[|s| - 1].id) then [] else [s[|s| - 1]])
  {
  }

  lemma ExcludeSnoc(d: seq<Movie>, x: Movie, excluded: seq<int>)
    ensures Exclude(d + [x], excluded) == Exclude(d, excluded) + (if x.id in excluded then [] else [x])
  {
    FilterConcat(NotExcluded(excluded), d, [x]);
    FilterSingleton(NotExcluded(excluded), x);
  }

  /** Position i holds the first movie with its id exactly when no earlier
      position has that id. */
  lemma FirstIndexIff(self: seq<Movie>, i: nat)
    requires i < |self|
    ensures FindIndex(self, self[i].id) == i <==> !HasId(self[..i], self[i].id)
  {
    if HasId(self[..i], self[i].id) {
      FirstIndexBefore(self, i, self[i].id);
    } else {
      FirstIndexAt(self, i);
    }
  }

  lemma FirstIndexBefore(self: seq<Movie>, n: nat, id: int)
    requires n <= |self| && HasId(self[..n], id)
    ensures 0 <= FindIndex(self, id) < n
  {
    FindIndexPrefix(self, n, id);
  }

  lemma FirstIndexAt(self: seq<Movie>, i: nat)
    requires i < |self| && !HasId(self[..i], self[i].id)
    ensures FindIndex(self, self[i].id) == i
  {
    forall j | 0 <= j < i
      ensures self[j].id != self[i].id
    {
      assert self[..i][j] == self[j];
    }
    assert HasId(self, self[i].id);
  }

  /** The response list is the first min(20, n) entries of the
      de-duplicated candidates with the loaded favorites excluded. */
  lemma PersonalizedIsReference(u: UserRecord, stored: seq<int>, respond: Lookup -> Option<seq<Movie>>)
    ensures Personalized(Some(u), stored, respond).results
      == Take(Exclude(Dedup(Candidates(Lookups(Take(stored, LoadedFavoritesLimit), u.favoriteGenres), respond)),
                      Take(stored, LoadedFavoritesLimit)),
              ResultLimit)
  {
    var loaded := Take(stored, LoadedFavoritesLimit);
    var c := Candidates(Lookups(loaded, u.favoriteGenres), respond);
    assert c[..|c|] == c;
    KeepFirstIsDedupThenExclude(c, loaded, |c|);
  }

  /** Favorite-derived candidates come first, in favorite order, and the
      genre-derived ones after them. */
  lemma CandidatesOrder(loaded: seq<int>, genres: Option<seq<int>>, respond: Lookup -> Option<seq<Movie>>)
    ensures Candidates(Lookups(loaded, genres), respond)
      == Candidates(SimilarLookups(Take(loaded, SimilarLookupLimit)), respond)
         + (if WantsGenres(genres) then Contribution(Discover(genres.value), respond(Discover(genres.value))) else [])
  {
    var sl := SimilarLookups(Take(loaded, SimilarLookupLimit));
    var gl := if WantsGenres(genres) then [Discover(genres.value)] else [];
    CandidatesConcat(sl, gl, respond);
    if WantsGenres(genres) {
      assert Candidates(gl, respond) == Contribution(gl[0], respond(gl[0])) + Candidates([], respond);
    }
  }

  /** At most three favorites are looked up with at most five results each,
      and the genre lookup adds at most ten: never more than 25 candidates. */
  lemma CandidateBound(stored: seq<int>, genres: Option<seq<int>>, respond: Lookup -> Option<seq<Movie>>)
    ensures |Candidates(Lookups(Take(stored, LoadedFavoritesLimit), genres), respond)| <= 25
  {
    var loaded := Take(stored, LoadedFavoritesLimit);
    var sl := SimilarLookups(Take(loaded, SimilarLookupLimit));
    var gl := if WantsGenres(genres) then [Discover(genres.value)] else [];
    CandidatesConcat(sl, gl, respond);
    CapSumBound(sl, PerFavoriteLimit);
    CapSumBound(gl, GenreLimit);
  }

  /** With no favorites and no genre preference no call is made and the
      answer is the empty list with count 0. */
  lemma NoSignalNoCalls(u: UserRecord, respond: Lookup -> Option<seq<Movie>>)
    requires !WantsGenres(u.favoriteGenres)
    ensures Lookups([], u.favoriteGenres) == []
    ensures Personalized(Some(u), [], respond) == Recommendations([], 0)
  {
  }

  /** The responder with one call's failure replaced by an empty answer. */
  function FailureAsEmpty(respond: Lookup -> Option<seq<Movie>>, failed: Lookup): Lookup -> Option<seq<Movie>> {
    (l: Lookup) => if l == failed then Some([]) else respond(l)
  }

  lemma {:induction false} CandidatesFailureAsEmpty(ls: seq<Lookup>, respond: Lookup -> Option<seq<Movie>>, failed: Lookup)
    requires respond(failed).None?
    ensures Candidates(ls, respond) == Candidates(ls, FailureAsEmpty(respond, failed))
  {
    if |ls| > 0 {
      CandidatesFailureAsEmpty(ls[1..], respond, failed);
    }
  }

  /** A failed call contributes nothing and the remaining steps still run:
      the reply equals the one obtained when that call answers no results. */
  lemma FailedLookupIsEmptyLookup(user: Option<UserRecord>, stored: seq<int>, respond: Lookup -> Option<seq<Movie>>, failed: Lookup)
    requires respond(failed).None?
    ensures Personalized(user, stored, respond) == Personalized(user, stored, FailureAsEmpty(respond, failed))
  {
    if user.Some? {
      CandidatesFailureAsEmpty(Lookups(Take(stored, LoadedFavoritesLimit), user.value.favoriteGenres), respond, failed);
    }
  }

  /** The reply depends only on the answers to the calls actually made. */
  lemma {:induction false} CandidatesFrame(ls: seq<Lookup>, r1: Lookup -> Option<seq<Movie>>, r2: Lookup -> Option<seq<Movie>>)
    requires forall i :: 0 <= i < |ls| ==> r1(ls[i]) == r2(ls[i])
    ensures Candidates(ls, r1) == Candidates(ls, r2)
  {
    if |ls| > 0 {
      CandidatesFrame(ls[1..], r1, r2);
    }
  }

  lemma PersonalizedFrame(u: UserRecord, stored: seq<int>, r1: Lookup -> Option<seq<Movie>>, r2: Lookup -> Option<seq<Movie>>)
    requires forall l :: l in Lookups(Take(stored, LoadedFavoritesLimit), u.favoriteGenres) ==> r1(l) == r2(l)
    ensures Personalized(Some(u), stored, r1) == Personalized(Some(u), stored, r2)
  {
    CandidatesFrame(Lookups(Take(stored, LoadedFavoritesLimit), u.favoriteGenres), r1, r2);
  }

  // ---------------------------------------------------------------------
  // Concrete scenarios. Titles and overviews play no part, so every movie
  // below carries the same arbitrary text t.

  function Film(id: int, t: string): Movie {
    Movie(id, t, t)
  }

  lemma CandidatesCons(l: Lookup, rest: seq<Lookup>, respond: Lookup -> Option<seq<Movie>>)
    ensures Candidates([l] + rest, respond) == Contribution(l, respond(l)) + Candidates(rest, respond)
  {
    assert ([l] + rest)[1..] == rest;
  }

  lemma DedupSnocNew(s: seq<Movie>, x: Movie)
    requires !HasId(s, x.id)
    ensures Dedup(s + [x]) == Dedup(s) + [x]
  {
    assert (s + [x])[..|s + [x]| - 1] == s;
  }

  lemma DedupSnocSeen(s: seq<Movie>, x: Movie)
    requires HasId(s, x.id)
    ensures Dedup(s + [x]) == Dedup(s)
  {
    assert (s + [x])[..|s + [x]| - 1] == s;
  }

  /** De-duplication leaves a list with distinct ids as it is. */
  lemma {:induction false} DedupOfUnique(s: seq<Movie>)
    requires UniqueIds(s)
    ensures Dedup(s) == s
  {
    if |s| > 0 {
      var p := s[..|s| - 1];
      var x := s[|s| - 1];
      assert s == p + [x];
      DedupOfUnique(p);
      forall i | 0 <= i < |p|
        ensures p[i].id != x.id
      {
        assert p[i] == s[i];
      }
      DedupSnocNew(p, x);
    }
  }

  /** Hence de-duplicating twice is de-duplicating once. */
  lemma DedupIdempotent(s: seq<Movie>)
    ensures Dedup(Dedup(s)) == Dedup(s)
  {
    DedupOfUnique(Dedup(s));
  }

  /** A run of one movie de-duplicates to that movie alone. */
  lemma {:induction false} DedupRepeat(s: seq<Movie>, m: Movie)
    requires |s| > 0 && forall i :: 0 <= i < |s| ==> s[i] == m
    ensures Dedup(s) == [m]
  {
    var p := s[..|s| - 1];
    assert s == p + [m];
    if |p| == 0 {
      DedupSnocNew(p, m);
    } else {
      DedupRepeat(p, m);
      assert p[0] == m;
      DedupSnocSeen(p, m);
    }
  }

  lemma ExcludeCons(x: Movie, rest: seq<Movie>, excluded: seq<int>)
    ensures Exclude([x] + rest, excluded) == (if x.id in excluded then [] else [x]) + Exclude(rest, excluded)
  {
    FilterConcat(NotExcluded(excluded), [x], rest);
    FilterSingleton(NotExcluded(excluded), x);
  }

  /** The answers of the worked example: the lookup for 101 answers 202 and
      404, the one for 202 answers 303 and 505, the one for 303 fails, and
      the discovery over genre 28 answers 404 and 606. */
  function Worked(t: string): Lookup -> Option<seq<Movie>> {
    (l: Lookup) =>
      match l
      case Similar(id) =>
        if id == 101 then Some([Film(202, t), Film(404, t)])
        else if id == 202 then Some([Film(303, t), Film(505, t)])
        else None
      case Discover(genres) => if genres == [28] then Some([Film(404, t), Film(606, t)]) else None
  }

  lemma WorkedCandidates(t: string)
    ensures Candidates(Lookups([101, 202, 303], Some([28])), Worked(t))
      == [Film(202, t), Film(404, t), Film(303, t), Film(505, t), Film(404, t), Film(606, t)]
  {
    var R := Worked(t);
    assert Take([101, 202, 303], SimilarLookupLimit) == [101, 202, 303];
    assert SimilarLookups([101, 202, 303]) == [Similar(101), Similar(202), Similar(303)];
    assert Lookups([101, 202, 303], Some([28]))
      == [Similar(101)] + ([Similar(202)] + ([Similar(303)] + [Discover([28])]));
    CandidatesCons(Discover([28]), [], R);
    CandidatesCons(Similar(303), [Discover([28])], R);
    CandidatesCons(Similar(202), [Similar(303)] + [Discover([28])], R);
    CandidatesCons(Similar(101), [Similar(202)] + ([Similar(303)] + [Discover([28])]), R);
  }

  lemma WorkedDedup(t: string)
    ensures Dedup([Film(202, t), Film(404, t), Film(303, t), Film(505, t), Film(404, t), Film(606, t)])
      == [Film(202, t), Film(404, t), Film(303, t), Film(505, t), Film(606, t)]
  {
    var s4 := [Film(202, t), Film(404, t), Film(303, t), Film(505, t)];
    WorkedDedupOf(s4, Film(404, t), Film(606, t));
    assert s4 + [Film(404, t)] + [Film(606, t)]
      == [Film(202, t), Film(404, t), Film(303, t), Film(505, t), Film(404, t), Film(606, t)];
    assert s4 + [Film(606, t)] == [Film(202, t), Film(404, t), Film(303, t), Film(505, t), Film(606, t)];
  }

  lemma WorkedDedupOf(s4: seq<Movie>, x: Movie, y: Movie)
    requires |s4| == 4 && s4[1] == x && y.id == 606
    requires s4[0].id == 202 && s4[1].id == 404 && s4[2].id == 303 && s4[3].id == 505
    ensures Dedup(s4 + [x] + [y]) == s4 + [y]
  {
    DedupOfUnique(s4);
    DedupSeenThenNew(s4, x, y);
  }

  lemma DedupSeenThenNew(s: seq<Movie>, x: Movie, y: Movie)
    requires Dedup(s) == s && HasId(s, x.id) && !HasId(s, y.id) && x.id != y.id
    ensures Dedup(s + [x] + [y]) == s + [y]
  {
    DedupSnocSeen(s, x);
    HasIdConcat(s, [x], y.id);
    DedupSnocNew(s + [x], y);
  }

  lemma WorkedExclude(t: string)
    ensures Exclude([Film(202, t), Film(404, t), Film(303, t), Film(505, t), Film(606, t)], [101, 202, 303])
      == [Film(404, t), Film(505, t), Film(606, t)]
  {
    WorkedExcludeOf([Film(202, t), Film(404, t), Film(303, t), Film(505, t), Film(606, t)], [101, 202, 303]);
  }

  lemma WorkedExcludeOf(s: seq<Movie>, ex: seq<int>)
    requires |s| == 5 && ex == [101, 202, 303]
    requires s[0].id == 202 && s[1].id == 404 && s[2].id == 303 && s[3].id == 505 && s[4].id == 606
    ensures Exclude(s, ex) == [s[1], s[3], s[4]]
  {
    assert Exclude(s[3..], ex) == [s[3], s[4]] by {
      assert s[4..] == [s[4]] + [];
      ExcludeCons(s[4], [], ex);
      assert s[3..] == [s[3]] + s[4..];
      ExcludeCons(s[3], s[4..], ex);
    }
    assert Exclude(s[1..], ex) == [s[1], s[3], s[4]] by {
      assert s[2..] == [s[2]] + s[3..];
      ExcludeCons(s[2], s[3..], ex);
      assert s[1..] == [s[1]] + s[2..];
      ExcludeCons(s[1], s[2..], ex);
    }
    assert s == [s[0]] + s[1..];
    ExcludeCons(s[0], s[1..], ex);
  }

  /** Favorites 101, 202, 303 and genre 28 with the answers above give 404,
      505, 606: duplicates and favorites are gone, the order is append order,
      and the failed lookup for 303 simply contributes nothing. */
  lemma WorkedExample(t: string)
    ensures Personalized(Some(UserRecord(Some([28]))), [101, 202, 303], Worked(t))
      == Recommendations([Film(404, t), Film(505, t), Film(606, t)], 3)
  {
    var stored := [101, 202, 303];
    assert Take(stored, LoadedFavoritesLimit) == stored;
    WorkedCandidates(t);
    WorkedDedup(t);
    WorkedExclude(t);
    PersonalizedIsReference(UserRecord(Some([28])), stored, Worked(t));
  }

  /** Every call answers movie 6. */
  function AlwaysSixth(t: string): Lookup -> Option<seq<Movie>> {
    (l: Lookup) => Some([Film(6, t)])
  }

  lemma SixthCandidates(t: string)
    ensures Candidates(Lookups([1, 2, 3, 4, 5], None), AlwaysSixth(t)) == [Film(6, t), Film(6, t), Film(6, t)]
  {
    var R := AlwaysSixth(t);
    assert Take([1, 2, 3, 4, 5], SimilarLookupLimit) == [1, 2, 3];
    assert SimilarLookups([1, 2, 3]) == [Similar(1), Similar(2), Similar(3)];
    assert Lookups([1, 2, 3, 4, 5], None) == [Similar(1)] + ([Similar(2)] + [Similar(3)]);
    CandidatesCons(Similar(3), [], R);
    CandidatesCons(Similar(2), [Similar(3)], R);
    CandidatesCons(Similar(1), [Similar(2)] + [Similar(3)], R);
  }

  lemma SixthDedup(t: string)
    ensures Dedup([Film(6, t), Film(6, t), Film(6, t)]) == [Film(6, t)]
  {
    DedupRepeat([Film(6, t), Film(6, t), Film(6, t)], Film(6, t));
  }

  /** Only the five loaded favorites are excluded: a user with six stored
      favorites can be recommended the sixth. */
  lemma SixthFavoriteCanBeRecommended(t: string)
    ensures Personalized(Some(UserRecord(None)), [1, 2, 3, 4, 5, 6], AlwaysSixth(t)).results == [Film(6, t)]
  {
    SixthFromStored(t, [1, 2, 3, 4, 5, 6]);
  }

  lemma SixthFromStored(t: string, stored: seq<int>)
    requires stored == [1, 2, 3, 4, 5, 6]
    ensures Personalized(Some(UserRecord(None)), stored, AlwaysSixth(t)).results == [Film(6, t)]
  {
    var loaded := Take(stored, LoadedFavoritesLimit);
    assert loaded == [1, 2, 3, 4, 5];
    SixthPipeline(t, loaded);
    PersonalizedIsReference(UserRecord(None), stored, AlwaysSixth(t));
  }

  lemma SixthPipeline(t: string, loaded: seq<int>)
    requires loaded == [1, 2, 3, 4, 5]
    ensures Take(Exclude(Dedup(Candidates(Lookups(loaded, None), AlwaysSixth(t))), loaded), ResultLimit) == [Film(6, t)]
  {
    var c := Candidates(Lookups(loaded, None), AlwaysSixth(t));
    SixthCandidates(t);
    var d := Dedup(c);
    SixthDedup(t);
    SixthExclude(Film(6, t), d, loaded);
  }

  lemma SixthExclude(m: Movie, d: seq<Movie>, loaded: seq<int>)
    requires m.id == 6 && d == [m] && loaded == [1, 2, 3, 4, 5]
    ensures Take(Exclude(d, loaded), ResultLimit) == [m]
  {
    ExcludeCons(m, [], loaded);
    assert [m] + [] == [m];
  }
}

=== FILE: search_page.dfy ===
/** The search page of src/pages/Search.tsx: a case-insensitive substring
    filter over the page's fixed list of mock movies, the trimming guard of
    form submission, the URL-driven search, the filter reset and the list
    of year options. The half-second simulated delay and the loading flag
    are not modelled; a search sets its results at once. */
module SearchPage {
  import opened Wrappers
  import opened Seqs
  import opened Movies
  import opened Text

  /** The page's two mock movies (src/pages/Search.tsx:13-46), with the
      fields a search reads. */
  const MockMovies: seq<Movie> := [
    Movie(1, "Avatar: The Way of Water", "Set more than a decade after the events of the first film..."),
    Movie(2, "Black Panther: Wakanda Forever",
          "Queen Ramonda, Shuri, M'Baku, Okoye and the Dora Milaje fight to protect their nation...")
  ]

  /** The test `movie.title.toLowerCase().includes(query.toLowerCase()) ||
      movie.overview.toLowerCase().includes(query.toLowerCase())`. */
  function MatchesQuery(query: string): (f: Movie -> bool)
    ensures forall m :: f(m) <==> Matches(m, query)
  {
    (m: Movie) => Includes(ToLower(m.title), ToLower(query)) || Includes(ToLower(m.overview), ToLower(query))
  }

  /** The lowercased query occurs in the lowercased title or overview. */
  ghost predicate Matches(m: Movie, query: string) {
    (exists i :: OccursAt(ToLower(m.title), ToLower(query), i))
    || (exists i :: OccursAt(ToLower(m.overview), ToLower(query), i))
  }

  /** `performSearch`: the movies that match, in their original order. */
  function PerformSearch(movies: seq<Movie>, query: string): (r: seq<Movie>)
    ensures |r| <= |movies|
    ensures forall i :: 0 <= i < |r| ==> Matches(r[i], query)
    ensures forall m :: m in r <==> m in movies && Matches(m, query)
  {
    forall m {
      FilterMembership(MatchesQuery(query), movies, m);
    }
    Filter(MatchesQuery(query), movies)
  }

  /** Searching keeps the list's order: the search of a concatenation is
      the concatenation of the searches. */
  lemma SearchKeepsOrder(a: seq<Movie>, b: seq<Movie>, query: string)
    ensures PerformSearch(a + b, query) == PerformSearch(a, query) + PerformSearch(b, query)
  {
    FilterConcat(MatchesQuery(query), a, b);
  }

  /** Changing the letter case of the query does not change the results. */
  lemma SearchIgnoresCase(movies: seq<Movie>, q1: string, q2: string)
    requires SameIgnoringCase(q1, q2)
    ensures PerformSearch(movies, q1) == PerformSearch(movies, q2)
  {
    SameIgnoringCaseLower(q1, q2);
    assert MatchesQuery(q1) == MatchesQuery(q2);
  }

  /** In particular an upper-cased query finds the same movies. */
  lemma SearchUpperCase(movies: seq<Movie>, query: string)
    ensures PerformSearch(movies, ToUpper(query)) == PerformSearch(movies, query)
  {
    UpperSameIgnoringCase(query);
    SearchIgnoresCase(movies, ToUpper(query), query);
  }

  /** The empty query matches every movie. */
  lemma EmptyQueryFindsAll(movies: seq<Movie>)
    ensures PerformSearch(movies, "") == movies
  {
    forall i | 0 <= i < |movies|
      ensures MatchesQuery("")(movies[i])
    {
      assert OccursAt(ToLower(movies[i].title), "", 0);
    }
    FilterKeepsAll(MatchesQuery(""), movies);
  }

  // ---------------------------------------------------------------------
  // Page state

  /** The page's state. The URL enters through the value of its `q`
      parameter and whether its search string is canonical: exactly the
      string `setSearchParams({ q })` writes for that value. A URL reached
      through `encodeURIComponent` (a space as `%20`, where the canonical
      form writes `+`) or carrying other parameters is not canonical. */
  datatype Page = Page(
    searchQuery: string,
    urlQuery: Option<string>,
    urlCanonical: bool,
    sortBy: string,
    yearFilter: string,
    ratingFilter: string,
    results: seq<Movie>)

  /** The filters' initial values: sort by popularity, no year, no rating. */
  predicate DefaultFilters(p: Page) {
    p.sortBy == "popularity" && p.yearFilter == "" && p.ratingFilter == ""
  }

  /** The state before any effect runs: the URL is as the page was reached,
      and the input shows its `q` parameter, or the empty string when it is
      absent. */
  function Initial(q: Option<string>, canonical: bool): (p: Page)
    ensures p.urlQuery == q && p.urlCanonical == canonical
    ensures DefaultFilters(p) && p.results == []
    ensures q.Some? ==> p.searchQuery == q.value
    ensures q.None? ==> p.searchQuery == ""
  {
    Page(q.GetOr(""), q, canonical, "popularity", "", "", [])
  }

  /** The URL's `q` is present and non-empty, so the effect searches. */
  predicate UrlWantsSearch(p: Page) {
    p.urlQuery.Some? && |p.urlQuery.value| > 0
  }

  /** The effect on `searchParams`, which reads `q` from the page's own URL:
      it searches only when `q` is present and non-empty, and then also
      shows `q` in the input. Only the input and the results can change. */
  function UrlEffect(p: Page): (r: Page)
    ensures UrlWantsSearch(p) ==>
      r.searchQuery == p.urlQuery.value && r.results == PerformSearch(MockMovies, p.urlQuery.value)
    ensures !UrlWantsSearch(p) ==> r == p
    ensures r.(searchQuery := p.searchQuery, results := p.results) == p
  {
    if UrlWantsSearch(p) then
      var q := p.urlQuery.value;
      p.(searchQuery := q, results := PerformSearch(MockMovies, q))
    else p
  }

  /** Running the effect a second time, as React's development mode does,
      changes nothing: the effect leaves the URL alone, and the input and
      results it writes depend only on the URL. */
  lemma UrlEffectIdempotent(p: Page)
    ensures UrlEffect(UrlEffect(p)) == UrlEffect(p)
  {
  }

  /** On mount, the input shows the URL's `q` (or nothing), and the results
      are the search for `q` exactly when `q` is present and non-empty. */
  lemma MountSearchesUrlQuery(q: Option<string>, canonical: bool)
    ensures UrlEffect(Initial(q, canonical)).searchQuery == q.GetOr("")
    ensures q.Some? && |q.value| > 0 ==>
      UrlEffect(Initial(q, canonical)).results == PerformSearch(MockMovies, q.value)
    ensures !(q.Some? && |q.value| > 0) ==> UrlEffect(Initial(q, canonical)).results == []
    ensures UrlEffect(Initial(q, canonical)).urlQuery == q
  {
  }

  /** `handleSearch`: a query that is blank after trimming does nothing;
      otherwise the trimmed query goes to the URL and is searched. */
  function HandleSearch(p: Page): (r: Page)
    ensures |Trim(p.searchQuery)| == 0 ==> r == p
    ensures |Trim(p.searchQuery)| > 0 ==>
      && r.urlQuery == Some(Trim(p.searchQuery)) && r.urlCanonical
      && r.results == PerformSearch(MockMovies, Trim(p.searchQuery))
      && r.(urlQuery := p.urlQuery, urlCanonical := p.urlCanonical, results := p.results) == p
  {
    var t := Trim(p.searchQuery);
    if |t| > 0 then p.(urlQuery := Some(t), urlCanonical := true, results := PerformSearch(MockMovies, t)) else p
  }

  /** Submitting the form writes the canonical search string for the
      trimmed query. The effect depends on `searchParams`, which is
      recomputed only when the URL's search string changes: when the value
      of `q` differs, or when the old string was not canonical. */
  predicate SearchStringChanges(p: Page) {
    p.urlQuery != Some(Trim(p.searchQuery)) || !p.urlCanonical
  }

  /** Submitting the form, with the re-render it causes. When the search
      string changes the effect runs again and the input shows the trimmed
      query; otherwise the input stays as typed. Either way the URL holds
      the trimmed query in canonical form and the results are its search;
      a blank query changes nothing. */
  function Submit(p: Page): (r: Page)
    ensures |Trim(p.searchQuery)| == 0 ==> r == p
    ensures |Trim(p.searchQuery)| > 0 ==>
      && r.urlQuery == Some(Trim(p.searchQuery)) && r.urlCanonical
      && r.results == PerformSearch(MockMovies, Trim(p.searchQuery))
      && (SearchStringChanges(p) ==> r.searchQuery == Trim(p.searchQuery))
      && (!SearchStringChanges(p) ==> r.searchQuery == p.searchQuery)
      && r.(searchQuery := p.searchQuery, urlQuery := p.urlQuery, urlCanonical := p.urlCanonical, results := p.results) == p
  {
    var h := HandleSearch(p);
    var t := Trim(p.searchQuery);
    if |t| == 0 then
      assert h == p;
      p
    else
      assert h == p.(urlQuery := Some(t), urlCanonical := true, results := PerformSearch(MockMovies, t));
      if SearchStringChanges(p) then
        assert UrlEffect(h) == h.(searchQuery := t);
        UrlEffect(h)
      else h
  }

  /** After a submit, submitting again changes nothing: the URL already
      holds the query and the results are already its search. */
  lemma SubmitIdempotent(p: Page)
    ensures Submit(Submit(p)) == Submit(p)
  {
    var t := Trim(p.searchQuery);
    var r := Submit(p);
    if |t| > 0 {
      assert r.urlQuery == Some(t) && r.results == PerformSearch(MockMovies, t);
      assert r.searchQuery == t || r.searchQuery == p.searchQuery;
      assert Trim(r.searchQuery) == t by {
        TrimIdempotent(p.searchQuery);
      }
      assert HandleSearch(r) == r;
    } else {
      assert r == p;
    }
  }

  /** A blank query, however much whitespace it holds, never searches. */
  lemma BlankQueryDoesNothing(p: Page)
    requires forall k :: 0 <= k < |p.searchQuery| ==> IsWhitespace(p.searchQuery[k])
    ensures HandleSearch(p) == p
  {
  }

  /** Submitting twice is submitting once: the second trim changes nothing. */
  lemma HandleSearchIdempotent(p: Page)
    ensures HandleSearch(HandleSearch(p).(searchQuery := Trim(p.searchQuery)))
      == HandleSearch(p).(searchQuery := Trim(p.searchQuery))
  {
    TrimIdempotent(p.searchQuery);
  }

  /** `clearFilters`: only the sort, year and rating filters are reset. */
  function ClearFilters(p: Page): (r: Page)
    ensures DefaultFilters(r)
    ensures r.searchQuery == p.searchQuery && r.urlQuery == p.urlQuery && r.results == p.results
    ensures r.(sortBy := p.sortBy, yearFilter := p.yearFilter, ratingFilter := p.ratingFilter) == p
    ensures DefaultFilters(p) ==> r == p
  {
    p.(sortBy := "popularity", yearFilter := "", ratingFilter := "")
  }

  /** After clearing, the filters are as on a fresh page. */
  lemma ClearFiltersLikeInitial(p: Page, q: Option<string>, c: bool)
    ensures ClearFilters(p).sortBy == Initial(q, c).sortBy
    ensures ClearFilters(p).yearFilter == Initial(q, c).yearFilter
    ensures ClearFilters(p).ratingFilter == Initial(q, c).ratingFilter
  {
  }

  /** The year options: thirty consecutive years, newest first, starting at
      the current year (an input, since the clock is outside the model). */
  function YearOptions(currentYear: int): (ys: seq<int>)
    ensures |ys| == 30
    ensures ys[0] == currentYear
    ensures forall i :: 0 <= i < |ys| - 1 ==> ys[i + 1] == ys[i] - 1
    ensures forall y :: y in ys <==> currentYear - 29 <= y <= currentYear
  {
    var ys := seq(30, i requires 0 <= i < 30 => currentYear - i);
    forall y | currentYear - 29 <= y <= currentYear
      ensures y in ys
    {
      assert ys[currentYear - y] == y;
    }
    ys
  }
}

=== FILE: seqs.dfy ===
/** Generic sequence operations shared by the model: JavaScript's
    `Array.prototype.slice(0, n)` and `Array.prototype.filter`. */
module Seqs {

  /** `s.slice(0, n)`: the first n elements, or all of s when it is shorter. */
  function Take<T>(s: seq<T>, n: nat): (r: seq<T>)
    ensures |r| <= n && |r| <= |s|
    ensures |s| <= n ==> r == s
    ensures n <= |s| ==> |r| == n
    ensures r == s[..|r|]
  {
    if |s| <= n then s else s[..n]
  }

  /** `s.filter(keep)`: the elements satisfying keep, in their original order. */
  function Filter<T>(keep: T -> bool, s: seq<T>): (r: seq<T>)
    ensures |r| <= |s|
    ensures forall i :: 0 <= i < |r| ==> keep(r[i])
  {
    if |s| == 0 then []
    else (if keep(s[0]) then [s[0]] else []) + Filter(keep, s[1..])
  }

  /** The filter keeps exactly the elements that pass the test. */
  lemma {:induction false} FilterMembership<T>(keep: T -> bool, s: seq<T>, x: T)
    ensures x in Filter(keep, s) <==> x in s && keep(x)
  {
    if |s| > 0 {
      FilterMembership(keep, s[1..], x);
      assert s == [s[0]] + s[1..];
    }
  }

  /** Filtering distributes over concatenation; together with the one-element
      case this pins down that the kept elements stay in their original order. */
  lemma {:induction false} FilterConcat<T>(keep: T -> bool, a: seq<T>, b: seq<T>)
    ensures Filter(keep, a + b) == Filter(keep, a) + Filter(keep, b)
  {
    if |a| == 0 {
      assert a + b == b;
    } else {
      assert (a + b)[1..] == a[1..] + b;
      FilterConcat(keep, a[1..], b);
    }
  }

  /** Filtering a one-element sequence keeps it exactly when keep holds. */
  lemma FilterSingleton<T>(keep: T -> bool, x: T)
    ensures Filter(keep, [x]) == if keep(x) then [x] else []
  {
    assert [x][1..] == [];
  }

  /** A filter that every element passes changes nothing. */
  lemma {:induction false} FilterKeepsAll<T>(keep: T -> bool, s: seq<T>)
    requires forall i :: 0 <= i < |s| ==> keep(s[i])
    ensures Filter(keep, s) == s
  {
    if |s| > 0 {
      FilterKeepsAll(keep, s[1..]);
    }
  }

  /** Filtering twice by the same test is filtering once. */
  lemma {:induction false} FilterIdempotent<T>(keep: T -> bool, s: seq<T>)
    ensures Filter(keep, Filter(keep, s)) == Filter(keep, s)
  {
    var r := Filter(keep, s);
    FilterKeepsAll(keep, r);
  }

  /** No element occurs twice. */
  ghost predicate Distinct<T>(s: seq<T>) {
    forall i, j :: 0 <= i < j < |s| ==> s[i] != s[j]
  }

  /** Filtering keeps a sequence free of repeats. */
  lemma {:induction false} FilterKeepsDistinct<T>(keep: T -> bool, s: seq<T>)
    requires Distinct(s)
    ensures Distinct(Filter(keep, s))
  {
    if |s| > 0 {
      FilterKeepsDistinct(keep, s[1..]);
      var rest := Filter(keep, s[1..]);
      forall j | 0 <= j < |rest|
        ensures rest[j] != s[0]
      {
        FilterMembership(keep, s[1..], rest[j]);
      }
    }
  }
}

=== FILE: text.dfy ===
/** The JavaScript string operations the search page relies on, over ASCII
    letter case: `toLowerCase`, `includes` and `trim`. */
module Text {

  predicate IsUpper(c: char) {
    'A' <= c <= 'Z'
  }

  predicate IsLower(c: char) {
    'a' <= c <= 'z'
  }

  function LowerChar(c: char): (d: char)
    ensures !IsUpper(d)
    ensures IsUpper(c) ==> d as int == c as int + 32
    ensures !IsUpper(c) ==> d == c
  {
    if IsUpper(c) then (c as int + 32) as char else c
  }

  function UpperChar(c: char): (d: char)
    ensures !IsLower(d)
    ensures LowerChar(d) == LowerChar(c)
  {
    if IsLower(c) then (c as int - 32) as char else c
  }

  /** `s.toLowerCase()` on ASCII letters; other characters are kept. */
  function ToLower(s: string): (r: string)
    ensures |r| == |s|
    ensures forall i :: 0 <= i < |s| ==> r[i] == LowerChar(s[i])
  {
    if |s| == 0 then "" else [LowerChar(s[0])] + ToLower(s[1..])
  }

  function ToUpper(s: string): (r: string)
    ensures |r| == |s|
    ensures forall i :: 0 <= i < |s| ==> r[i] == UpperChar(s[i])
  {
    if |s| == 0 then "" else [UpperChar(s[0])] + ToUpper(s[1..])
  }

  /** Two strings that differ only in ASCII letter case. */
  ghost predicate SameIgnoringCase(a: string, b: string) {
    |a| == |b| && forall i :: 0 <= i < |a| ==> LowerChar(a[i]) == LowerChar(b[i])
  }

  lemma SameIgnoringCaseLower(a: string, b: string)
    requires SameIgnoringCase(a, b)
    ensures ToLower(a) == ToLower(b)
  {
  }

  lemma UpperSameIgnoringCase(s: string)
    ensures SameIgnoringCase(ToUpper(s), s)
  {
  }

  /** `needle` occurs in `hay` at position i. */
  ghost predicate OccursAt(hay: string, needle: string, i: int) {
    0 <= i && i + |needle| <= |hay| && hay[i..i + |needle|] == needle
  }

  /** `hay.includes(needle)`: some position holds the needle; the empty
      needle is found everywhere. */
  function Includes(hay: string, needle: string): (b: bool)
    ensures b <==> exists i :: OccursAt(hay, needle, i)
    decreases |hay|
  {
    if |needle| <= |hay| && hay[..|needle|] == needle then
      assert OccursAt(hay, needle, 0);
      true
    else if |hay| == 0 then
      assert forall i :: !OccursAt(hay, needle, i);
      false
    else
      var rest := Includes(hay[1..], needle);
      IncludesShift(hay, needle);
      rest
  }

  lemma IncludesShift(hay: string, needle: string)
    requires |hay| > 0
    requires !(|needle| <= |hay| && hay[..|needle|] == needle)
    ensures (exists i :: OccursAt(hay, needle, i)) <==> (exists i :: OccursAt(hay[1..], needle, i))
  {
    if exists i :: OccursAt(hay, needle, i) {
      var i :| OccursAt(hay, needle, i);
      assert i != 0;
      assert hay[1..][i - 1..i - 1 + |needle|] == hay[i..i + |needle|];
      assert OccursAt(hay[1..], needle, i - 1);
    }
    if exists i :: OccursAt(hay[1..], needle, i) {
      var i :| OccursAt(hay[1..], needle, i);
      assert hay[i + 1..i + 1 + |needle|] == hay[1..][i..i + |needle|];
      assert OccursAt(hay, needle, i + 1);
    }
  }

  /** The characters `String.prototype.trim` removes: the ECMAScript
      WhiteSpace and LineTerminator code points. */
  const Whitespace: set<char> := {
    '\U{9}', '\U{A}', '\U{B}', '\U{C}', '\U{D}', '\U{20}', '\U{A0}', '\U{1680}',
    '\U{2000}', '\U{2001}', '\U{2002}', '\U{2003}', '\U{2004}', '\U{2005}',
    '\U{2006}', '\U{2007}', '\U{2008}', '\U{2009}', '\U{200A}',
    '\U{2028}', '\U{2029}', '\U{202F}', '\U{205F}', '\U{3000}', '\U{FEFF}'
  }

  predicate IsWhitespace(c: char) {
    c in Whitespace
  }

  /** The first position at or after i that is not whitespace (|s| if
      none). */
  function SkipStart(s: string, i: nat): (j: nat)
    requires i <= |s|
    ensures i <= j <= |s|
    ensures forall k :: i <= k < j ==> IsWhitespace(s[k])
    ensures j < |s| ==> !IsWhitespace(s[j])
    decreases |s| - i
  {
    if i < |s| && IsWhitespace(s[i]) then SkipStart(s, i + 1) else i
  }

  /** The end of the last non-whitespace character of s[lo..hi] (lo if
      none). */
  function SkipEnd(s: string, lo: nat, hi: nat): (j: nat)
    requires lo <= hi <= |s|
    ensures lo <= j <= hi
    ensures forall k :: j <= k < hi ==> IsWhitespace(s[k])
    ensures j > lo ==> !IsWhitespace(s[j - 1])
    decreases hi - lo
  {
    if lo < hi && IsWhitespace(s[hi - 1]) then SkipEnd(s, lo, hi - 1) else hi
  }

  /** r is s with the whitespace before position i and after position
      i + |r| cut off. */
  ghost predicate TrimmedAt(s: string, r: string, i: int) {
    && 0 <= i && i + |r| <= |s| && r == s[i..i + |r|]
    && (forall k :: 0 <= k < i ==> IsWhitespace(s[k]))
    && (forall k :: i + |r| <= k < |s| ==> IsWhitespace(s[k]))
  }

  /** `s.trim()`: the longest middle part with no whitespace at either end;
      everything cut off is whitespace. */
  function Trim(s: string): (r: string)
    ensures exists i :: TrimmedAt(s, r, i)
    ensures |r| > 0 ==> !IsWhitespace(r[0]) && !IsWhitespace(r[|r| - 1])
    ensures (forall k :: 0 <= k < |s| ==> IsWhitespace(s[k])) <==> |r| == 0
  {
    var i := SkipStart(s, 0);
    var j := SkipEnd(s, i, |s|);
    var r := s[i..j];
    assert TrimmedAt(s, r, i);
    TrimmedAtBlank(s, r, i);
    r
  }

  /** A middle part that does not start with whitespace is empty exactly
      when the whole string is whitespace. */
  lemma TrimmedAtBlank(s: string, r: string, i: int)
    requires TrimmedAt(s, r, i) && (|r| > 0 ==> !IsWhitespace(r[0]))
    ensures (forall k :: 0 <= k < |s| ==> IsWhitespace(s[k])) <==> |r| == 0
  {
    if |r| > 0 {
      assert s[i] == r[0];
    }
  }

  /** Trimming twice is trimming once. */
  lemma TrimIdempotent(s: string)
    ensures Trim(Trim(s)) == Trim(s)
  {
    var r := Trim(s);
    assert SkipStart(r, 0) == 0;
    assert SkipEnd(r, 0, |r|) == |r|;
    assert r[0..|r|] == r;
  }
}

=== FILE: user_store.dfy ===
/** The authenticated user routes of server/routes/users.js over an
    abstract document store. Each handler is a transition from the store
    and the caller's id (established by the authentication middleware) to a
    status and a new store. Fresh document ids come from the database and
    are inputs here; an id already in use fails the insert with a server
    error, as a duplicate `_id` does. */
module UserStore {
  import opened Wrappers
  import opened Seqs

  type UserId = int
  type MovieId = int
  type DocId = int

  datatype Status = Ok | Created | BadRequest | NotFound | ServerError {
    function Code(): int {
      match this
      case Ok => 200
      case Created => 201
      case BadRequest => 400
      case NotFound => 404
      case ServerError => 500
    }
  }

  datatype Profile = Profile(username: string, avatarUrl: string, favoriteGenres: seq<int>)

  datatype WatchlistDoc = WatchlistDoc(owner: UserId, name: string, description: string, movies: seq<MovieId>)

  datatype ReviewDoc = ReviewDoc(owner: UserId, movieId: MovieId, rating: int, content: string)

  datatype Store = Store(
    users: map<UserId, Profile>,
    favorites: set<(UserId, MovieId)>,
    watchlists: map<DocId, WatchlistDoc>,
    reviews: map<DocId, ReviewDoc>)

  datatype Outcome = Outcome(status: Status, store: Store)

  /** Watchlist entries are unique and a user has at most one review per movie. */
  ghost predicate Valid(s: Store) {
    && (forall id :: id in s.watchlists ==> Distinct(s.watchlists[id].movies))
    && (forall a, b :: a in s.reviews && b in s.reviews && a != b ==>
          s.reviews[a].owner != s.reviews[b].owner || s.reviews[a].movieId != s.reviews[b].movieId)
  }

  // ---------------------------------------------------------------------
  // Profile

  /** `User.findById(req.userId)`: the profile, or null. */
  function GetProfile(s: Store, uid: UserId): (p: Option<Profile>)
    ensures p.Some? <==> uid in s.users
    ensures p.Some? ==> p.value == s.users[uid]
  {
    if uid in s.users then Some(s.users[uid]) else None
  }

  /** The fields of a profile update body; a field the body leaves out is
      `None`. Mongoose drops undefined keys from an update, so such a field
      keeps its stored value. */
  datatype ProfileUpdate = ProfileUpdate(username: Option<string>, avatarUrl: Option<string>, favoriteGenres: Option<seq<int>>)

  /** `User.findByIdAndUpdate`: sets the caller's username, avatar and
      preferences that the body carries; a missing user is answered with
      null and nothing changes. */
  function UpdateProfile(s: Store, uid: UserId, u: ProfileUpdate): (r: Outcome)
    ensures r.status == Ok
    ensures uid in s.users ==>
      && GetProfile(r.store, uid).Some?
      && r.store.users[uid].username == u.username.GetOr(s.users[uid].username)
      && r.store.users[uid].avatarUrl == u.avatarUrl.GetOr(s.users[uid].avatarUrl)
      && r.store.users[uid].favoriteGenres == u.favoriteGenres.GetOr(s.users[uid].favoriteGenres)
    ensures uid !in s.users ==> r.store == s
    ensures u == ProfileUpdate(None, None, None) ==> r.store == s
    ensures r.store.users.Keys == s.users.Keys
    ensures forall v :: v in s.users && v != uid ==> r.store.users[v] == s.users[v]
    ensures r.store.(users := s.users) == s
  {
    if uid in s.users then
      var cur := s.users[uid];
      var p := Profile(u.username.GetOr(cur.username), u.avatarUrl.GetOr(cur.avatarUrl),
                       u.favoriteGenres.GetOr(cur.favoriteGenres));
      Outcome(Ok, s.(users := s.users[uid := p]))
    else Outcome(Ok, s)
  }

  // ---------------------------------------------------------------------
  // Favorites

  /** The movie ids the caller has favorited. */
  function ListFavorites(s: Store, uid: UserId): (ms: set<MovieId>)
    ensures forall m :: m in ms <==> (uid, m) in s.favorites
  {
    set p | p in s.favorites && p.0 == uid :: p.1
  }

  /** `GET /favorites/:movieId/check` */
  function IsFavorite(s: Store, uid: UserId, m: MovieId): (b: bool)
    ensures b <==> m in ListFavorites(s, uid)
  {
    (uid, m) in s.favorites
  }

  /** `POST /favorites`: 400 when the pair exists, else 201 with exactly
      that pair added. */
  function AddFavorite(s: Store, uid: UserId, m: MovieId): (r: Outcome)
    ensures (uid, m) in s.favorites ==> r.status == BadRequest && r.store == s
    ensures (uid, m) !in s.favorites ==> r.status == Created && r.store.favorites - s.favorites == {(uid, m)}
    ensures s.favorites <= r.store.favorites
    ensures r.store.(favorites := s.favorites) == s
  {
    if (uid, m) in s.favorites then Outcome(BadRequest, s)
    else Outcome(Created, s.(favorites := s.favorites + {(uid, m)}))
  }

  /** `DELETE /favorites/:movieId`: removes only the caller's pair, and
      answers 200 whether or not it was there. */
  function RemoveFavorite(s: Store, uid: UserId, m: MovieId): (r: Outcome)
    ensures r.status == Ok
    ensures (uid, m) !in r.store.favorites
    ensures s.favorites - r.store.favorites <= {(uid, m)}
    ensures r.store.favorites <= s.favorites
    ensures r.store.(favorites := s.favorites) == s
  {
    Outcome(Ok, s.(favorites := s.favorites - {(uid, m)}))
  }

  /** Adding the same favorite twice: the second answer is 400 and the
      store holds the pair once, as after the first. */
  lemma AddFavoriteTwice(s: Store, uid: UserId, m: MovieId)
    ensures AddFavorite(AddFavorite(s, uid, m).store, uid, m).status == BadRequest
    ensures AddFavorite(AddFavorite(s, uid, m).store, uid, m).store == AddFavorite(s, uid, m).store
    ensures IsFavorite(AddFavorite(s, uid, m).store, uid, m)
  {
  }

  // ---------------------------------------------------------------------
  // Watchlists

  /** `Watchlist.findOne({ _id, user })`: the list when it exists and the
      caller owns it. */
  predicate Owns(s: Store, uid: UserId, id: DocId) {
    id in s.watchlists && s.watchlists[id].owner == uid
  }

  /** The caller's watchlists. */
  function ListWatchlists(s: Store, uid: UserId): (w: map<DocId, WatchlistDoc>)
    ensures forall id :: id in w <==> Owns(s, uid, id)
    ensures forall id :: id in w ==> id in s.watchlists && w[id] == s.watchlists[id]
  {
    map id | id in s.watchlists && s.watchlists[id].owner == uid :: s.watchlists[id]
  }

  /** `POST /watchlists`: a new empty list owned by the caller. */
  function CreateWatchlist(s: Store, uid: UserId, id: DocId, name: string, description: string): (r: Outcome)
    ensures id in s.watchlists ==> r == Outcome(ServerError, s)
    ensures id !in s.watchlists ==> r.status == Created && r.store.watchlists.Keys == s.watchlists.Keys + {id}
    ensures id !in s.watchlists ==> Owns(r.store, uid, id) && r.store.watchlists[id].movies == []
    ensures id !in s.watchlists ==> r.store.watchlists[id].name == name && r.store.watchlists[id].description == description
    ensures forall k :: k in s.watchlists ==> k in r.store.watchlists && r.store.watchlists[k] == s.watchlists[k]
    ensures r.store.(watchlists := s.watchlists) == s
  {
    if id in s.watchlists then Outcome(ServerError, s)
    else Outcome(Created, s.(watchlists := s.watchlists[id := WatchlistDoc(uid, name, description, [])]))
  }

  /** `DELETE /watchlists/:id`: removes the list only when the caller owns
      it; always 200. */
  function DeleteWatchlist(s: Store, uid: UserId, id: DocId): (r: Outcome)
    ensures r.status == Ok
    ensures id !in r.store.watchlists || !Owns(s, uid, id)
    ensures !Owns(s, uid, id) ==> r.store == s
    ensures forall k :: k in s.watchlists && k != id ==> k in r.store.watchlists && r.store.watchlists[k] == s.watchlists[k]
    ensures r.store.watchlists.Keys <= s.watchlists.Keys
    ensures r.store.(watchlists := s.watchlists) == s
  {
    if Owns(s, uid, id) then Outcome(Ok, s.(watchlists := s.watchlists - {id})) else Outcome(Ok, s)
  }

  /** `POST /watchlists/:id/movies`: 404 for a list that is absent or not
      the caller's, 400 when the movie is already listed, else the movie is
      appended at the end. */
  function AddToWatchlist(s: Store, uid: UserId, id: DocId, m: MovieId): (r: Outcome)
    ensures !Owns(s, uid, id) ==> r == Outcome(NotFound, s)
    ensures Owns(s, uid, id) && m in s.watchlists[id].movies ==> r == Outcome(BadRequest, s)
    ensures Owns(s, uid, id) && m !in s.watchlists[id].movies ==>
      && r.status == Ok
      && r.store.watchlists.Keys == s.watchlists.Keys
      && |r.store.watchlists[id].movies| == |s.watchlists[id].movies| + 1
      && r.store.watchlists[id].movies[..|s.watchlists[id].movies|] == s.watchlists[id].movies
      && r.store.watchlists[id].movies[|s.watchlists[id].movies|] == m
      && r.store.watchlists[id].(movies := s.watchlists[id].movies) == s.watchlists[id]
    ensures forall k :: k in s.watchlists && k != id ==> k in r.store.watchlists && r.store.watchlists[k] == s.watchlists[k]
    ensures r.store.(watchlists := s.watchlists) == s
  {
    if !Owns(s, uid, id) then Outcome(NotFound, s)
    else
      var w := s.watchlists[id];
      if m in w.movies then Outcome(BadRequest, s)
      else Outcome(Ok, s.(watchlists := s.watchlists[id := w.(movies := w.movies + [m])]))
  }

  /** The test `m => m.movieId !== movieId`. */
  function EntryIsNot(m: MovieId): MovieId -> bool {
    (x: MovieId) => x != m
  }

  /** `DELETE /watchlists/:id/movies/:movieId`: 404 for a list that is not
      the caller's, else every entry for the movie is removed and the others
      keep their order; removing an absent movie changes nothing. */
  function RemoveFromWatchlist(s: Store, uid: UserId, id: DocId, m: MovieId): (r: Outcome)
    ensures !Owns(s, uid, id) ==> r == Outcome(NotFound, s)
    ensures Owns(s, uid, id) ==>
      && r.status == Ok
      && r.store.watchlists.Keys == s.watchlists.Keys
      && m !in r.store.watchlists[id].movies
      && (forall x :: x != m ==> (x in r.store.watchlists[id].movies <==> x in s.watchlists[id].movies))
      && r.store.watchlists[id].(movies := s.watchlists[id].movies) == s.watchlists[id]
    ensures Owns(s, uid, id) && m !in s.watchlists[id].movies ==> r.store == s
    ensures forall k :: k in s.watchlists && k != id ==> k in r.store.watchlists && r.store.watchlists[k] == s.watchlists[k]
    ensures r.store.(watchlists := s.watchlists) == s
  {
    if !Owns(s, uid, id) then Outcome(NotFound, s)
    else
      var w := s.watchlists[id];
      var kept := Filter(EntryIsNot(m), w.movies);
      RemoveEntryFacts(w.movies, m);
      Outcome(Ok, s.(watchlists := s.watchlists[id := w.(movies := kept)]))
  }

  lemma RemoveEntryFacts(movies: seq<MovieId>, m: MovieId)
    ensures m !in Filter(EntryIsNot(m), movies)
    ensures forall x :: x != m ==> (x in Filter(EntryIsNot(m), movies) <==> x in movies)
    ensures m !in movies ==> Filter(EntryIsNot(m), movies) == movies
  {
    forall x {
      FilterMembership(EntryIsNot(m), movies, x);
    }
    if m !in movies {
      FilterKeepsAll(EntryIsNot(m), movies);
    }
  }

  /** Removing a movie keeps the remaining entries in their original order:
      the entries before and after any split point are filtered separately. */
  lemma RemoveKeepsOrder(a: seq<MovieId>, b: seq<MovieId>, m: MovieId)
    ensures Filter(EntryIsNot(m), a + b) == Filter(EntryIsNot(m), a) + Filter(EntryIsNot(m), b)
  {
    FilterConcat(EntryIsNot(m), a, b);
  }

  // ---------------------------------------------------------------------
  // Reviews

  /** The caller already has a review for the movie. */
  predicate HasReview(s: Store, uid: UserId, m: MovieId) {
    exists id :: id in s.reviews && s.reviews[id].owner == uid && s.reviews[id].movieId == m
  }

  /** `GET /reviews/movie/:movieId` (public): every review of the movie. */
  function ReviewsOfMovie(s: Store, m: MovieId): (rs: map<DocId, ReviewDoc>)
    ensures forall id :: id in rs <==> id in s.reviews && s.reviews[id].movieId == m
    ensures forall id :: id in rs ==> rs[id] == s.reviews[id]
  {
    map id | id in s.reviews && s.reviews[id].movieId == m :: s.reviews[id]
  }

  /** `GET /reviews/user/:movieId`: the caller's reviews of the movie. */
  function UserReview(s: Store, uid: UserId, m: MovieId): (rs: map<DocId, ReviewDoc>)
    ensures forall id :: id in rs <==> id in s.reviews && s.reviews[id].owner == uid && s.reviews[id].movieId == m
    ensures forall id :: id in rs ==> rs[id] == s.reviews[id]
    ensures HasReview(s, uid, m) <==> exists id :: id in rs
  {
    var rs := map id | id in s.reviews && s.reviews[id].owner == uid && s.reviews[id].movieId == m :: s.reviews[id];
    rs
  }

  /** In a valid store the caller has at most one review per movie, so
      `findOne` is unambiguous. */
  lemma UserReviewAtMostOne(s: Store, uid: UserId, m: MovieId)
    requires Valid(s)
    ensures forall a, b :: a in UserReview(s, uid, m) && b in UserReview(s, uid, m) ==> a == b
  {
  }

  /** `POST /reviews`: 400 when the caller already reviewed the movie, else
      201 with the new review stored under the fresh id. */
  function CreateReview(s: Store, uid: UserId, id: DocId, m: MovieId, rating: int, content: string): (r: Outcome)
    ensures HasReview(s, uid, m) ==> r == Outcome(BadRequest, s)
    ensures !HasReview(s, uid, m) && id in s.reviews ==> r == Outcome(ServerError, s)
    ensures !HasReview(s, uid, m) && id !in s.reviews ==>
      && r.status == Created
      && r.store.reviews.Keys == s.reviews.Keys + {id}
      && r.store.reviews[id] == ReviewDoc(uid, m, rating, content)
    ensures forall k :: k in s.reviews ==> k in r.store.reviews && r.store.reviews[k] == s.reviews[k]
    ensures r.store.(reviews := s.reviews) == s
  {
    if HasReview(s, uid, m) then Outcome(BadRequest, s)
    else if id in s.reviews then Outcome(ServerError, s)
    else Outcome(Created, s.(reviews := s.reviews[id := ReviewDoc(uid, m, rating, content)]))
  }

  /** `PUT /reviews/:id`: only the owner may change a review, and only the
      rating and content the body carries change (an absent field is `None`
      and keeps its stored value); otherwise 404 and nothing changes. */
  function UpdateReview(s: Store, uid: UserId, id: DocId, rating: Option<int>, content: Option<string>): (r: Outcome)
    ensures !(id in s.reviews && s.reviews[id].owner == uid) ==> r == Outcome(NotFound, s)
    ensures id in s.reviews && s.reviews[id].owner == uid ==>
      && r.status == Ok
      && r.store.reviews.Keys == s.reviews.Keys
      && r.store.reviews[id].rating == rating.GetOr(s.reviews[id].rating)
      && r.store.reviews[id].content == content.GetOr(s.reviews[id].content)
      && r.store.reviews[id].owner == uid && r.store.reviews[id].movieId == s.reviews[id].movieId
    ensures rating.None? && content.None? ==> r.store == s
    ensures forall k :: k in s.reviews && k != id ==> k in r.store.reviews && r.store.reviews[k] == s.reviews[k]
    ensures r.store.(reviews := s.reviews) == s
  {
    if id in s.reviews && s.reviews[id].owner == uid then
      var cur := s.reviews[id];
      Outcome(Ok, s.(reviews := s.reviews[id := cur.(rating := rating.GetOr(cur.rating), content := content.GetOr(cur.content))]))
    else Outcome(NotFound, s)
  }

  /** `DELETE /reviews/:id`: removes the review only when the caller owns
      it; always 200. */
  function DeleteReview(s: Store, uid: UserId, id: DocId): (r: Outcome)
    ensures r.status == Ok
    ensures id in s.reviews && s.reviews[id].owner == uid ==> id !in r.store.reviews
    ensures !(id in s.reviews && s.reviews[id].owner == uid) ==> r.store == s
    ensures forall k :: k in s.reviews && k != id ==> k in r.store.reviews && r.store.reviews[k] == s.reviews[k]
    ensures r.store.reviews.Keys <= s.reviews.Keys
    ensures r.store.(reviews := s.reviews) == s
  {
    if id in s.reviews && s.reviews[id].owner == uid then Outcome(Ok, s.(reviews := s.reviews - {id}))
    else Outcome(Ok, s)
  }

  /** Reviewing the same movie twice: the second answer is 400, whatever
      fresh id it would have used. */
  lemma CreateReviewTwice(s: Store, uid: UserId, id1: DocId, id2: DocId, m: MovieId, r1: int, c1: string, r2: int, c2: string)
    requires CreateReview(s, uid, id1, m, r1, c1).status == Created
    ensures CreateReview(CreateReview(s, uid, id1, m, r1, c1).store, uid, id2, m, r2, c2).status == BadRequest
  {
    var s' := CreateReview(s, uid, id1, m, r1, c1).store;
    assert id1 in s'.reviews && s'.reviews[id1].owner == uid && s'.reviews[id1].movieId == m;
  }

  // ---------------------------------------------------------------------
  // Every handler

  datatype Request =
    | UpdateProfileReq(update: ProfileUpdate)
    | AddFavoriteReq(movieId: MovieId)
    | RemoveFavoriteReq(movieId: MovieId)
    | CreateWatchlistReq(id: DocId, name: string, description: string)
    | DeleteWatchlistReq(id: DocId)
    | AddToWatchlistReq(id: DocId, movieId: MovieId)
    | RemoveFromWatchlistReq(id: DocId, movieId: MovieId)
    | CreateReviewReq(id: DocId, movieId: MovieId, rating: int, content: string)
    | UpdateReviewReq(id: DocId, newRating: Option<int>, newContent: Option<string>)
    | DeleteReviewReq(id: DocId)

  /** Dispatch to the handler of a request. No handler touches another
      user's data: profiles, favorites, watchlists and reviews of every other
      user are neither changed, removed nor created. */
  function Handle(s: Store, uid: UserId, req: Request): (r: Outcome)
    ensures OthersUnchanged(s, r.store, uid)
  {
    match req
    case UpdateProfileReq(p) => UpdateProfile(s, uid, p)
    case AddFavoriteReq(m) => AddFavorite(s, uid, m)
    case RemoveFavoriteReq(m) => RemoveFavorite(s, uid, m)
    case CreateWatchlistReq(id, name, description) => CreateWatchlist(s, uid, id, name, description)
    case DeleteWatchlistReq(id) => DeleteWatchlist(s, uid, id)
    case AddToWatchlistReq(id, m) => AddToWatchlist(s, uid, id, m)
    case RemoveFromWatchlistReq(id, m) => RemoveFromWatchlist(s, uid, id, m)
    case CreateReviewReq(id, m, rating, content) => CreateReview(s, uid, id, m, rating, content)
    case UpdateReviewReq(id, rating, content) => UpdateReview(s, uid, id, rating, content)
    case DeleteReviewReq(id) => DeleteReview(s, uid, id)
  }

  /** Nothing another user owns is changed, removed or created. */
  ghost predicate OthersUnchanged(s: Store, s': Store, uid: UserId) {
    && (forall u :: u != uid ==> (u in s.users <==> u in s'.users))
    && (forall u :: u != uid && u in s.users ==> s'.users[u] == s.users[u])
    && (forall p: (UserId, MovieId) :: p.0 != uid ==> (p in s.favorites <==> p in s'.favorites))
    && (forall k :: k in s.watchlists && s.watchlists[k].owner != uid ==>
          k in s'.watchlists && s'.watchlists[k] == s.watchlists[k])
    && (forall k :: k in s'.watchlists && s'.watchlists[k].owner != uid ==>
          k in s.watchlists && s'.watchlists[k] == s.watchlists[k])
    && (forall k :: k in s.reviews && s.reviews[k].owner != uid ==>
          k in s'.reviews && s'.reviews[k] == s.reviews[k])
    && (forall k :: k in s'.reviews && s'.reviews[k].owner != uid ==>
          k in s.reviews && s'.reviews[k] == s.reviews[k])
  }

  /** Every handler keeps watchlist entries unique and reviews unique per
      (user, movie). */
  lemma HandlePreservesValid(s: Store, uid: UserId, req: Request)
    requires Valid(s)
    ensures Valid(Handle(s, uid, req).store)
  {
    match req {
      case AddToWatchlistReq(id, m) => AddToWatchlistKeepsValid(s, uid, id, m);
      case RemoveFromWatchlistReq(id, m) => RemoveFromWatchlistKeepsValid(s, uid, id, m);
      case CreateReviewReq(id, m, rating, content) => CreateReviewKeepsValid(s, uid, id, m, rating, content);
      case UpdateReviewReq(id, newRating, newContent) => UpdateReviewKeepsValid(s, uid, id, newRating, newContent);
      case _ =>
    }
  }

  lemma AddToWatchlistKeepsValid(s: Store, uid: UserId, id: DocId, m: MovieId)
    requires Valid(s)
    ensures Valid(AddToWatchlist(s, uid, id, m).store)
  {
    if Owns(s, uid, id) && m !in s.watchlists[id].movies {
      var movies := s.watchlists[id].movies + [m];
      assert Distinct(movies);
    }
  }

  lemma RemoveFromWatchlistKeepsValid(s: Store, uid: UserId, id: DocId, m: MovieId)
    requires Valid(s)
    ensures Valid(RemoveFromWatchlist(s, uid, id, m).store)
  {
    if Owns(s, uid, id) {
      FilterKeepsDistinct(EntryIsNot(m), s.watchlists[id].movies);
    }
  }

  lemma CreateReviewKeepsValid(s: Store, uid: UserId, id: DocId, m: MovieId, rating: int, content: string)
    requires Valid(s)
    ensures Valid(CreateReview(s, uid, id, m, rating, content).store)
  {
    var s' := CreateReview(s, uid, id, m, rating, content).store;
    if !HasReview(s, uid, m) && id !in s.reviews {
      forall a, b | a in s'.reviews && b in s'.reviews && a != b
        ensures s'.reviews[a].owner != s'.reviews[b].owner || s'.reviews[a].movieId != s'.reviews[b].movieId
      {
        if a != id && b != id {
          assert s'.reviews[a] == s.reviews[a] && s'.reviews[b] == s.reviews[b];
        }
      }
    }
  }

  lemma UpdateReviewKeepsValid(s: Store, uid: UserId, id: DocId, newRating: Option<int>, newContent: Option<string>)
    requires Valid(s)
    ensures Valid(UpdateReview(s, uid, id, newRating, newContent).store)
  {
    var s' := UpdateReview(s, uid, id, newRating, newContent).store;
    assert forall k :: k in s'.reviews ==>
      k in s.reviews && s'.reviews[k].owner == s.reviews[k].owner && s'.reviews[k].movieId == s.reviews[k].movieId;
  }
}

=== FILE: wrappers.dfy ===
/** Optional values, used for lookups that may fail and documents that may
    be missing. */
module Wrappers {

  datatype Option<+T> = None | Some(value: T) {

    /** The value in Some, or a default when None. */
    function GetOr(default: T): T {
      match this
      case Some(v) => v
      case None => default
    }
  }
}
